=== FILE: README.md ===
# AwsQueueBroker dispatch core in Dafny

This project models the message-dispatch core of the AwsQueueBroker library, a small
.NET broker that polls an Amazon SQS queue and hands every message to a registered
processor. It covers three parts:

- **The envelope (`QMessage`).** Parsing a received message checks for the two
  required attributes. The outbound constructor injects the message name and the
  library version, then overlays the caller's extra attributes.
- **The settings record (`QBrokerSettings`).** Two properties are range-checked:
  batch size in 1..10 and long-poll wait in 0..20 seconds. The record also holds
  the queue URL and four policy flags, and `QBroker.Setup` applies a caller's
  assignments to a fresh record.
- **The broker (`QBroker`).**
  - `AddMessageType` keeps two registry maps.
  - `FetchAsync` receives one batch or, with `FetchUntilEmpty`, batches until one
    comes back empty or a failure ends the fetch. It skips messages that are
    malformed or unregistered, and it compares each message's version with the
    library's. A mismatch only warns, but a version that does not parse is fatal.
    Each remaining message goes through a fresh processor.
  - `_processMessage` runs the stages Received, deserialize, Validate and Process,
    then sends the reply and deletes the message.
  - A failure inside that lifecycle is caught and routed to the processor's `Error`
    stage. The `DeleteIfSuccess`, `DeleteIfInvalid` and `DeleteIfError` flags decide
    which deletes are made.

The model is functional:

- **Scripted inputs.** The transport is a finite list of receive answers. An
  exhausted list answers OK with an empty batch. Send and delete are oracles that
  say whether the call answered OK; the delete oracle also sees which of the
  three delete calls is being made. `Broker.SendAsync` and `Broker.DeleteAsync`
  are the transport boundary: each returns normally iff its oracle answers OK, and
  a send of a null message always fails. What a non-OK status does is stated where
  it takes effect: `BrokerProofs.FailedSendRoutesToError`,
  `BrokerProofs.FailedSuccessDeleteRoutesToError`,
  `BrokerProofs.FailedInvalidDeleteRoutesToError` and
  `BrokerProofs.ErrorDeleteStatus`.
- **Processors.** What a fresh processor does with a message is a scripted
  `Outcome`: which stage fails first, or what `Process` returns. A separate flag says
  whether its `Error` stage throws.
- **Comparator.** The semantic-version comparator is an oracle returning the
  comparison, or None when the version does not parse.
- **Result of a fetch.** `Broker.Fetch` returns the trace of observable steps, such
  as a receive call, a skipped message, a warning, a stage entered, a send, a delete
  or an `Error` run. It also returns whether the fetch completed or escaped with an
  exception (`Fatal`). Every recursive call consumes one receive answer.

Modules:

- `Wrappers`: Option and Result.
- `Envelope`: `QMessage.cs`.
- `BrokerSettings`: `QBrokerSettings.cs` and `QBroker.Setup`.
- `Registry`: `QBroker.AddMessageType`.
- `Processor`: the vocabulary of `QProcessor.cs` and `QReply.cs`.
- `Broker`: `FetchAsync`, `_processMessage`, `SendAsync` and `DeleteAsync`.
- `BrokerProofs`: the properties of the loop.

The code is modelled as written:

- **Extras can replace the reserved attributes.** Extra attributes passed to the
  outbound constructor replace the injected name and version attributes when they
  use those keys (`QMessage.cs:98-108`). `Envelope.OutboundLastWins` and
  `Envelope.RoundTrip` state that a colliding extra wins.
- **A failed send or success-path delete is not fatal.** It throws inside the
  per-message `try`, so it is routed to `Error`. Of the failures inside that
  `try` and its `catch`, only an exception from `Error` itself, or a failed
  error-path delete, escapes `FetchAsync`. The processor is created before the
  `try`; see "## Left out" for a constructor that throws.
- **A version parse failure is fatal.** Version parsing happens outside the
  per-message `try`, so it aborts the fetch, whether or not the message's name is
  registered (`BrokerProofs.VersionUnparsableIff`,
  `BrokerProofs.UnparsableVersionEndsFetch`).
- **A name missing from the model map is fatal.** If the name is in the processor
  map but not the model map, the lookup throws outside the `try`
  (`BrokerProofs.ModelTypeMissingIff`). A registry built only through
  `AddMessageType` cannot get into that state
  (`BrokerProofs.RegisteredBrokerFindsModel`).
- **A non-OK receive is fatal.** It throws before any message of the batch is
  touched, on the first receive or on any later one
  (`BrokerProofs.ReceiveFailureEndsFetch`).
- **A fatal message ends the fetch.** A processor run or message that is fatal
  makes its batch fatal (`BrokerProofs.BatchIsolation`), and a fatal batch ends
  the fetch with the same error and no further receive
  (`BrokerProofs.FatalBatchEndsFetch`).

## Model

| member | source | states |
|---|---|---|
| Envelope.Parse | AwsQueueBroker/QMessage.cs:17-69 | Parsing succeeds iff both the name and version keys are present. The name is checked first: MissingName iff the name key is absent, MissingVersion iff the name is present and the version key absent. On success Id, Body and MessageAttributes are the raw message's, and Name/Version return the values stored under the two keys. |
| Envelope.Outbound | AwsQueueBroker/QMessage.cs:78-109 | The outbound message's body is exactly the given body. Its attribute keys are exactly {name key, version key} ∪ the extra keys. |
| Envelope.MergeKeys | AwsQueueBroker/QMessage.cs:98-108 | Overlaying extras onto a map yields the map's keys plus every key the extras mention. |
| Envelope.MergeUntouched | AwsQueueBroker/QMessage.cs:98-108 | A key the extras never mention keeps its presence and value from the base map. |
| Envelope.MergeLastWins | AwsQueueBroker/QMessage.cs:98-108 | Every mentioned key ends up holding the value of its last occurrence in the extras. |
| Envelope.OutboundDefaults | AwsQueueBroker/QMessage.cs:86-96 | With no colliding extra, the outbound name is the given name and the version is the library version "1.0.0". |
| Envelope.OutboundLastWins | AwsQueueBroker/QMessage.cs:98-108 | Each extra key maps to its last supplied value, reserved name/version keys included. |
| Envelope.RoundTrip | AwsQueueBroker/QMessage.cs:57-109 | Every outbound message parses back with its body. It has the given name and library version unless an extra overrides them, in which case it has the last overriding value. |
| BrokerSettings.Defaults | AwsQueueBroker/QBrokerSettings.cs:14-55 | A fresh record has batch size 5 and wait 0 (both in range), no queue URL, and all four flags true. |
| BrokerSettings.Assign | AwsQueueBroker/QBrokerSettings.cs:14-55 | A setter succeeds iff the value is accepted: batch size in [1,10], wait in [0,20], anything for the other properties. Otherwise it fails with the out-of-range error naming that property. On success the targeted property reads the value and no other property changes. Range validity is preserved. |
| BrokerSettings.RejectedAssignmentKeepsState | AwsQueueBroker/QBrokerSettings.cs:17-19 | A rejected assignment stops the setup and leaves the record exactly as it was, because the check runs before the store. |
| BrokerSettings.Apply | AwsQueueBroker/QBroker.cs:50-56 | A setup action completes iff every assignment is accepted. Both ranges stay valid after any sequence of assignments. When all succeed, the last assignment's value is the one read. |
| BrokerSettings.Setup | AwsQueueBroker/QBroker.cs:50-56 | Setup starts from a fresh record, so its result is always in range. With no assignments it is the defaults. |
| Registry.AddMessageType | AwsQueueBroker/QBroker.cs:37-43 | Adding fails with DuplicateName iff the name is already in either map. On success the name is added to both maps with the given types, and existing entries are kept. The two maps keep the same key set. |
| Registry.RegisterAll | AwsQueueBroker/QBroker.cs:37-43 | Starting from a consistent registry, a chain of additions succeeds iff the names are distinct and new. The result is consistent and holds the old names plus the new ones. |
| Broker.HandleMessage | AwsQueueBroker/QBroker.cs:131-191 | A message that fails to parse is skipped with no other effect. A parsed message's first event is its Processing event. A parsed message whose version does not parse is fatal right after that event, with VersionUnparsable, whatever its name. No message makes a receive call. |
| Broker.RunBatch | AwsQueueBroker/QBroker.cs:131-192 | An empty batch does nothing and completes. A handler that never receives yields a batch trace with no receive. |
| Broker.ProcessBatch | AwsQueueBroker/QBroker.cs:131-192 | The broker's batch loop never issues a receive, and an empty batch completes with no events. |
| Broker.Fetch | AwsQueueBroker/QBroker.cs:114-197 | A fetch starts with a receive. A non-OK status is fatal before any message is touched. An empty batch ends the fetch whatever FetchUntilEmpty says. Without FetchUntilEmpty no second receive is made. |
| Broker.ProcessMessage | AwsQueueBroker/QBroker.cs:199-247 | The lifecycle never receives and never runs Error itself; the catch around it does. |
| Broker.AfterProcess | AwsQueueBroker/QBroker.cs:227-235 | The reply send and success delete neither receive nor run Error. |
| Broker.RunProcessor | AwsQueueBroker/QBroker.cs:176-191 | A processor run never issues a receive, and the only errors that escape it are the Error stage throwing and the error-path delete failing. |
| Broker.Dispatch | AwsQueueBroker/QBroker.cs:165-191 | Dispatch never issues a receive. It is fatal with ModelTypeMissing iff the name is in the processor map but not the model map; otherwise only the processor run's own errors escape. |
| Broker.SuccessDelete | AwsQueueBroker/QBroker.cs:232-235 | The success delete is attempted, at most once, iff DeleteIfSuccess, and throws iff it is attempted and the status is not OK. |
| Broker.VersionWarnings | AwsQueueBroker/QBroker.cs:151-163 | At most one warning: "older" iff the comparison is -1, "newer" iff it is 1, and none for any other value. |
| Envelope.Merge | AwsQueueBroker/QMessage.cs:98-108 | Overlaying extras never removes a key of the base map; the values it leaves are stated by `MergeLastWins` and `MergeUntouched`. |
| BrokerProofs.LifecycleEvents | AwsQueueBroker/QBroker.cs:199-247 | Every lifecycle step is a stage, send or delete of this message. |
| BrokerProofs.RunProcessorEvents | AwsQueueBroker/QBroker.cs:176-191 | A processor run adds only Error and the error-path delete, all about this message. |
| BrokerProofs.DispatchEvents | AwsQueueBroker/QBroker.cs:165-191 | Dispatch produces no receive, Processing or warning event, only events about this message. |
| BrokerProofs.HandleMessageEvents | AwsQueueBroker/QBroker.cs:131-191 | Everything done with a received message is about that message. |
| BrokerProofs.AfterProcessShape | AwsQueueBroker/QBroker.cs:227-235 | The send precedes the delete. A send to the reply's destination is attempted iff the reply is non-null with a non-empty destination. The success delete is attempted iff DeleteIfSuccess and no send failed first. |
| BrokerProofs.LifecycleSplit | AwsQueueBroker/QBroker.cs:206-247 | The lifecycle trace is the stages entered followed only by sends and deletes. |
| BrokerProofs.LifecycleStages | AwsQueueBroker/QBroker.cs:206-225 | A stage is entered iff it comes before the first failing stage, inclusive, for each outcome. |
| BrokerProofs.LifecycleEffects | AwsQueueBroker/QBroker.cs:220-247 | A send is attempted iff Process returned a reply with a destination. A delete is attempted iff (invalid and DeleteIfInvalid) or (processed, DeleteIfSuccess and no failed send). The lifecycle throws iff a stage, the send, or the delete it makes fails. |
| BrokerProofs.LifecycleInOrder | AwsQueueBroker/QBroker.cs:206-235 | Lifecycle steps come in the order Received, deserialize, Validate, Process, send, delete, each at most once. |
| BrokerProofs.ErrorIffLifecycleThrows | AwsQueueBroker/QBroker.cs:176-191 | Error runs exactly once iff the lifecycle threw, and never otherwise. After it comes only the error-path delete, made iff DeleteIfError and Error did not throw. The processor run is fatal iff Error throws or that delete fails. |
| BrokerProofs.StageFailureIsolated | AwsQueueBroker/QBroker.cs:176-191 | A failing stage skips every later stage and the send. Error runs exactly once. The message is deleted iff DeleteIfError and Error did not throw. |
| BrokerProofs.StageThrowTrace | AwsQueueBroker/QBroker.cs:176-191 | A stage failure's trace is the stages entered, then Error, then the error-path delete if made. |
| BrokerProofs.InvalidNeverProcessed | AwsQueueBroker/QBroker.cs:220-246 | A message Validate marks invalid never reaches Process and sends nothing. It is deleted iff DeleteIfInvalid. Without that flag, Error never runs. |
| BrokerProofs.SuccessPath | AwsQueueBroker/QBroker.cs:220-235 | With OK transport answers, a processed message completes without Error and is processed. Its reply is sent iff non-null with a destination, and it is deleted iff DeleteIfSuccess. |
| BrokerProofs.FailedSuccessDeleteRoutesToError | AwsQueueBroker/QBroker.cs:176-191 | A non-OK success-path delete is caught: Error runs once, and the processor run is fatal iff Error throws or the error-path delete fails. |
| BrokerProofs.FailedSendRoutesToError | AwsQueueBroker/QBroker.cs:176-191 | A non-OK reply send is caught: the success delete is skipped, Error runs once, the only delete is the error-path one, and the processor run is fatal iff Error throws or that delete fails. |
| BrokerProofs.FailedInvalidDeleteRoutesToError | AwsQueueBroker/QBroker.cs:176-191 | A non-OK delete of an invalid message is caught: Error runs once, and the processor run is fatal iff Error throws or the error-path delete fails. |
| BrokerProofs.ErrorDeleteStatus | AwsQueueBroker/QBroker.cs:184-190 | Once Error has returned after a throw, with DeleteIfError set, the processor run is fatal with ErrorDeleteFailed iff the error-path delete's status is not OK, and otherwise not fatal. |
| BrokerProofs.DispatchedRunsProcessor | AwsQueueBroker/QBroker.cs:147-191 | A dispatched message gets exactly one Processing event, enters exactly the stages its processor's outcome reaches, runs Error once iff the lifecycle threw and never otherwise, and is fatal exactly when its processor run is. |
| BrokerProofs.SkippedMessageUntouched | AwsQueueBroker/QBroker.cs:135-169 | A malformed or unregistered message is skipped without being fatal, and with no stage, send, delete or Error. |
| BrokerProofs.VersionWarningCount | AwsQueueBroker/QBroker.cs:149-163 | Comparison -1 gives exactly one "older" warning, 1 exactly one "newer" warning, any other value none. |
| BrokerProofs.VersionCheckObservational | AwsQueueBroker/QBroker.cs:149-178 | Any two comparator answers that both parse give the same trace once warnings are removed, and the same fatal result. |
| BrokerProofs.VersionUnparsableIff | AwsQueueBroker/QBroker.cs:147-150 | A message is fatal with VersionUnparsable iff it parses and its version does not, registered name or not. |
| BrokerProofs.ModelTypeMissingIff | AwsQueueBroker/QBroker.cs:165-172 | A message is fatal with ModelTypeMissing iff it parses, its version compares, and its name is in the processor map but not the model map. |
| BrokerProofs.ConsistentRegistryFindsModel | AwsQueueBroker/QBroker.cs:165-172 | When both maps hold the same names, no message is fatal with ModelTypeMissing. |
| BrokerProofs.RegisteredBrokerFindsModel | AwsQueueBroker/QBroker.cs:37-43 | A registry built from empty by `AddMessageType` calls never makes a message fatal with ModelTypeMissing. |
| BrokerProofs.UnparsableVersionEndsFetch | AwsQueueBroker/QBroker.cs:131-150 | If message k is the first fatal one in the first batch because its version does not parse, the fetch is exactly the receive, the earlier messages' events, and k's Processing event, and then it aborts with VersionUnparsable. |
| BrokerProofs.HandleFatalIsLast | AwsQueueBroker/QBroker.cs:135-191 | A message's fatal error is raised at its last event. |
| BrokerProofs.BatchFatalIsLast | AwsQueueBroker/QBroker.cs:131-192 | The first fatal message ends the batch: the trace stops at the event that raised the error. |
| BrokerProofs.ProcessBatchFatalIsLast | AwsQueueBroker/QBroker.cs:131-192 | The same holds for the broker's own batch loop. |
| BrokerProofs.FetchFatalIsLast | AwsQueueBroker/QBroker.cs:114-197 | A fatal error ends the fetch: no later message or batch is handled. |
| BrokerProofs.BatchIsolation | AwsQueueBroker/QBroker.cs:131-192 | If no earlier message was fatal, a batch's trace begins with each earlier message's events, then message k's events. Each is exactly as that message would be handled alone. A fatal message k ends the batch with its error. |
| BrokerProofs.BatchCompletes | AwsQueueBroker/QBroker.cs:131-192 | A batch completes iff none of its messages is fatal. |
| BrokerProofs.FetchResumes | AwsQueueBroker/QBroker.cs:116-196 | With FetchUntilEmpty, after k receives that each brought a batch the broker completed, the fetch continues exactly as a fetch of the remaining receive answers: same completion, and its trace ends with that fetch's trace. |
| BrokerProofs.ReceiveFailureEndsFetch | AwsQueueBroker/QBroker.cs:120-125 | A non-OK status on receive k, after k completed batches, aborts the fetch with ReceiveFailed, and that receive is the last event. |
| BrokerProofs.FatalBatchEndsFetch | AwsQueueBroker/QBroker.cs:131-196 | A fatal batch, after k completed batches, ends the fetch with that batch's error, and the trace ends with its receive and the batch's events. |
| BrokerProofs.SingleReceive | AwsQueueBroker/QBroker.cs:194-195 | Without FetchUntilEmpty a fetch issues exactly one receive. |
| BrokerProofs.ReceivesUntilEmpty | AwsQueueBroker/QBroker.cs:116-127 | With FetchUntilEmpty, a completed fetch issues one receive per leading non-empty batch, plus one. |
| BrokerProofs.StopsAtEmpty | AwsQueueBroker/QBroker.cs:116-127 | A completed FetchUntilEmpty fetch stops at an empty OK answer, or at the end of the receive script. |

## Left out

- **SQS SDK calls.** `ReceiveMessageAsync`, `SendMessageAsync` and `DeleteMessageAsync` are network I/O. Receive is a scripted list of answers (status and messages); send and delete are OK/non-OK predicates. The request parameters (`QueueUrl`, `MaxNumberOfMessages`, `WaitTimeSeconds`, attribute names) are not passed to the transport. A receive answer may hold more messages than the batch size.
- **Delete answers.** The delete predicate depends on the message and on which delete call is made (success, invalid or error path), not on how many deletes came before.
- **Reflection dispatch.** `Activator.CreateInstance`, `GetMethod`, `Invoke` and `_executeAsyncMethod` are replaced by the per-message scripted `Outcome` of a fresh processor. A processor class without one of the methods is not modelled. The source creates the processor with `Activator.CreateInstance` before the per-message `try` (`QBroker.cs:174`), so a constructor that throws, or a processor type without a public parameterless constructor, would abort `FetchAsync`. Model processors always construct, so that fatal path is not modelled.
- **JSON.** Newtonsoft deserialization is modelled only as succeed or fail (`DeserializeFails`).
- **Semantic versioning.** `SemVersion.Parse` and `SemVersion.Compare` are an oracle from the version string to a comparison result, or None when parsing throws.
- **Infrastructure.** Serilog logging and its message strings, `async`/`Task` plumbing and exception messages are left out. Only the events the properties need are kept, such as the skip, the Processing event and the warning.
- **Attribute keys.** The static attribute-key names in `Constants.cs` are mutable in the source. Here they are the fixed defaults "qbMessageName" and "qbMessageVersion".
- **Null values.**
  - An attribute value is its string value; a null `StringValue` is not modelled.
  - The null id and receipt handle of an outbound message are written as "".
  - A null reply message is `None`, and sending it fails like a non-OK send.
- **Use before setup.** Calling `FetchAsync` before `Setup` would dereference null settings; that is not modelled.
- Registry.AddMessageType: when the name is absent from the processor map but present in the model map, the source has already inserted into the processor map before the second insertion throws. The model leaves the registry unchanged on failure. That state cannot arise from a registry built only by this operation.
- **Example processor.** The test suite's `TestQProcessor`, which answers "valid", "throw" and anything else differently, is not modelled. Any such processor is one `script` function.

=== FILE: broker.dfy ===
/**
 * The broker's fetch/dispatch loop (`QBroker.FetchAsync` and
 * `_processMessage`). Transport, JSON codec, semantic-version comparator and
 * processors are scripted inputs; a fetch yields the trace of what the
 * broker did and whether it completed or threw.
 */
module Broker {
  import opened Wrappers
  import opened Envelope
  import opened BrokerSettings
  import opened Registry
  import opened Processor

  /** Why a received message was passed over without dispatch. */
  datatype SkipReason = Malformed | NoProcessor

  /** Direction of a version mismatch with the library. */
  datatype Drift = Older | Newer

  /** One observable step of the broker. */
  datatype Event =
    | Receive                                   // a receive call to the transport
    | Skip(id: string, reason: SkipReason)      // message passed over
    | Processing(id: string)                    // message accepted as a broker message
    | Warn(id: string, drift: Drift)            // version mismatch warning
    | StageRun(id: string, stage: Stage)        // a lifecycle stage was entered
    | Send(id: string, destination: string)     // a reply send was attempted
    | Delete(id: string)                        // a delete of the message was attempted
    | Error(id: string)                         // the processor's Error stage was entered

  /** What escapes `FetchAsync`. */
  datatype FatalError =
    | ReceiveFailed                 // the receive status was not OK
    | VersionUnparsable(id: string) // the comparator threw on the message's version
    | ModelTypeMissing(id: string)  // name in the processor map but not the model map
    | ErrorStageFailed(id: string)  // the Error stage itself threw
    | ErrorDeleteFailed(id: string) // the error-path delete did not return OK

  datatype Completion = Ok | Fatal(error: FatalError)

  /** A fetch's trace and how it ended. */
  datatype Run = Run(trace: seq<Event>, completion: Completion)

  /** Which delete call of `FetchAsync` is being made. */
  datatype DeleteReason = AfterSuccess | AfterInvalid | AfterError

  /** One scripted answer of the transport's receive call. */
  datatype ReceiveResponse = ReceiveResponse(statusOk: bool, messages: seq<RawMessage>)

  /** The transport's status answers to send and delete calls (true: OK). */
  datatype Transport = Transport(
    sendOk: (QMessage, string) -> bool,
    deleteOk: (RawMessage, DeleteReason) -> bool)

  /**
   * The collaborators outside the model: `compare` parses a version string
   * and compares it with the library's version (None: the parser threw);
   * `script` is what a fresh processor of the handler does with a message.
   */
  datatype Oracles = Oracles(
    compare: string -> Option<int>,
    script: (Handler, RawMessage) -> Script,
    transport: Transport)

  /**
   * `SendAsync`: true iff the call returns normally. A null message throws
   * before any request is made; otherwise a non-OK status throws.
   */
  function SendAsync(t: Transport, message: Option<QMessage>, queueUrl: string): (ok: bool)
    ensures message.None? ==> !ok
    ensures message.Some? ==> (ok <==> t.sendOk(message.value, queueUrl))
  {
    message.Some? && t.sendOk(message.value, queueUrl)
  }

  /** `DeleteAsync`: true iff the call returns normally, that is iff the status is OK. */
  function DeleteAsync(t: Transport, q: QMessage, reason: DeleteReason): (ok: bool)
    ensures ok <==> t.deleteOk(q.raw, reason)
  {
    t.deleteOk(q.raw, reason)
  }

  /** A reply is sent only when it is non-null with a non-empty destination. */
  predicate SendsReply(reply: Option<Reply>)
  {
    reply.Some? && reply.value.replyToQueueUrl != ""
  }

  /** Order of lifecycle steps: the stages, then the send, then the delete. */
  function Rank(e: Event): nat
  {
    match e
    case StageRun(_, st) => StageIndex(st)
    case Send(_, _) => 4
    case Delete(_) => 5
    case _ => 6
  }

  /** The first `n` lifecycle stages of message `id`, in the order the broker drives them. */
  function Entered(id: string, n: nat): seq<Event>
    requires n <= 4
  {
    [StageRun(id, Received), StageRun(id, Deserialize), StageRun(id, Validate), StageRun(id, Process)][..n]
  }

  /** The events of `_processMessage` and whether it threw. */
  datatype Lifecycle = Lifecycle(events: seq<Event>, failed: bool)

  /** When `_processMessage` throws: a stage fails, or a send or delete it makes does. */
  predicate LifecycleThrows(s: Settings, tr: Transport, q: QMessage, outcome: Outcome)
  {
    || StageThrows(outcome)
    || (outcome.Invalid? && s.deleteIfInvalid && !DeleteAsync(tr, q, AfterInvalid))
    || (outcome.Processed? && SendsReply(outcome.reply)
        && !SendAsync(tr, outcome.reply.value.message, outcome.reply.value.replyToQueueUrl))
    || (outcome.Processed? && s.deleteIfSuccess && !DeleteAsync(tr, q, AfterSuccess)
        && (SendsReply(outcome.reply) ==>
              SendAsync(tr, outcome.reply.value.message, outcome.reply.value.replyToQueueUrl)))
  }

  /** The success-path delete: made iff DeleteIfSuccess; a non-OK status throws. */
  function SuccessDelete(s: Settings, tr: Transport, q: QMessage): (r: Lifecycle)
    ensures Delete(q.Id()) in r.events <==> s.deleteIfSuccess
    ensures r.events == [] || r.events == [Delete(q.Id())]
    ensures r.failed <==> s.deleteIfSuccess && !DeleteAsync(tr, q, AfterSuccess)
  {
    if s.deleteIfSuccess then Lifecycle([Delete(q.Id())], !DeleteAsync(tr, q, AfterSuccess))
    else Lifecycle([], false)
  }

  /** What follows a `Process` that returned: the reply send, then the success delete. */
  function AfterProcess(s: Settings, tr: Transport, q: QMessage, reply: Option<Reply>): (r: Lifecycle)
    ensures Receive !in r.events && Error(q.Id()) !in r.events
  {
    if SendsReply(reply) then
      var sent := Send(q.Id(), reply.value.replyToQueueUrl);
      if !SendAsync(tr, reply.value.message, reply.value.replyToQueueUrl) then Lifecycle([sent], true)
      else
        var deleted := SuccessDelete(s, tr, q);
        Lifecycle([sent] + deleted.events, deleted.failed)
    else SuccessDelete(s, tr, q)
  }

  /**
   * `_processMessage`: Received, deserialize, Validate; then either the
   * invalid branch (delete iff DeleteIfInvalid) or Process, the reply send
   * and the success delete. The first throw ends it.
   */
  function ProcessMessage(s: Settings, tr: Transport, q: QMessage, outcome: Outcome): (r: Lifecycle)
    ensures Receive !in r.events && Error(q.Id()) !in r.events
  {
    var id := q.Id();
    var stages := Entered(id, StagesEntered(outcome));
    match outcome
    case Invalid =>
      if s.deleteIfInvalid then Lifecycle(stages + [Delete(id)], !DeleteAsync(tr, q, AfterInvalid))
      else Lifecycle(stages, false)
    case Processed(reply) =>
      var rest := AfterProcess(s, tr, q, reply);
      Lifecycle(stages + rest.events, rest.failed)
    case _ =>
      Lifecycle(stages, true)
  }

  /** The warning the version comparison yields: only results -1 and 1 warn. */
  function VersionWarnings(id: string, comparison: int): (w: seq<Event>)
    ensures Warn(id, Older) in w <==> comparison == -1
    ensures Warn(id, Newer) in w <==> comparison == 1
    ensures w == [] <==> comparison != -1 && comparison != 1
    ensures |w| <= 1
  {
    if comparison == -1 then [Warn(id, Older)]
    else if comparison == 1 then [Warn(id, Newer)]
    else []
  }

  /** The events of one received message and the fatal error it raised, if any. */
  datatype Step = Step(events: seq<Event>, fatal: Option<FatalError>)

  /**
   * A fresh processor on one message: the lifecycle inside the per-message
   * `try`; if it threw, the Error stage and then the error-path delete iff
   * DeleteIfError, neither of them caught.
   */
  function RunProcessor(s: Settings, tr: Transport, q: QMessage, script: Script): (r: Step)
    ensures Receive !in r.events
    ensures r.fatal.Some? ==> r.fatal.value == ErrorStageFailed(q.Id()) || r.fatal.value == ErrorDeleteFailed(q.Id())
  {
    var id := q.Id();
    var life := ProcessMessage(s, tr, q, script.outcome);
    if !life.failed then Step(life.events, None)
    else
      var errored := life.events + [Error(id)];
      if script.errorFails then Step(errored, Some(ErrorStageFailed(id)))
      else if !s.deleteIfError then Step(errored, None)
      else if DeleteAsync(tr, q, AfterError) then Step(errored + [Delete(id)], None)
      else Step(errored + [Delete(id)], Some(ErrorDeleteFailed(id)))
  }

  /**
   * Dispatch of a parsed message after the version check: look up the
   * processor (skip if none registered) and run a fresh one. A name missing
   * from the model map throws outside the per-message `try`.
   */
  function Dispatch(s: Settings, reg: Registry, script: (Handler, RawMessage) -> Script, tr: Transport, q: QMessage): (r: Step)
    requires q.Name().Some?
    ensures Receive !in r.events
    ensures r.fatal == Some(ModelTypeMissing(q.Id())) <==>
      q.Name().value in reg.processors && q.Name().value !in reg.models
    ensures r.fatal.Some? ==>
      || r.fatal.value == ModelTypeMissing(q.Id())
      || r.fatal.value == ErrorStageFailed(q.Id())
      || r.fatal.value == ErrorDeleteFailed(q.Id())
  {
    var id := q.Id();
    var name := q.Name().value;
    if name !in reg.processors then Step([Skip(id, NoProcessor)], None)
    else if name !in reg.models then Step([], Some(ModelTypeMissing(id)))
    else RunProcessor(s, tr, q, script(Handler(reg.models[name], reg.processors[name]), q.raw))
  }

  /**
   * One iteration of the per-message loop of `FetchAsync`: parse the
   * envelope (skip if malformed), compare versions (a parse failure there is
   * not caught), then dispatch.
   */
  function HandleMessage(s: Settings, reg: Registry, o: Oracles, m: RawMessage): (r: Step)
    ensures Parse(m).Failure? ==> r == Step([Skip(m.id, Malformed)], None)
    ensures Parse(m).Success? ==> |r.events| > 0 && r.events[0] == Processing(m.id)
    ensures Parse(m).Success? && o.compare(m.attributes[VersionKey]).None? ==>
      r == Step([Processing(m.id)], Some(VersionUnparsable(m.id)))
    ensures Receive !in r.events
  {
    match Parse(m)
    case Failure(_) => Step([Skip(m.id, Malformed)], None)
    case Success(q) =>
      var id := q.Id();
      var accepted := [Processing(id)];
      var comparison := o.compare(q.Version().value);
      if comparison.None? then Step(accepted, Some(VersionUnparsable(id)))
      else
        var dispatched := Dispatch(s, reg, o.script, o.transport, q);
        Step(accepted + VersionWarnings(id, comparison.value) + dispatched.events, dispatched.fatal)
  }

  /**
   * The `foreach` over one received batch, for any per-message handler:
   * messages in order until one is fatal.
   */
  function RunBatch(handle: RawMessage -> Step, batch: seq<RawMessage>): (r: Run)
    ensures (forall m :: Receive !in handle(m).events) ==> Receive !in r.trace
    ensures |batch| == 0 ==> r == Run([], Ok)
    decreases |batch|
  {
    if |batch| == 0 then Run([], Ok)
    else
      var first := handle(batch[0]);
      if first.fatal.Some? then Run(first.events, Fatal(first.fatal.value))
      else
        var rest := RunBatch(handle, batch[1..]);
        Run(first.events + rest.trace, rest.completion)
  }

  /** The broker's per-message handling as a handler for `RunBatch`. */
  function Handling(s: Settings, reg: Registry, o: Oracles): RawMessage -> Step
  {
    m => HandleMessage(s, reg, o, m)
  }

  /** The batch loop of `FetchAsync` with the broker's own per-message handling. */
  function ProcessBatch(s: Settings, reg: Registry, o: Oracles, batch: seq<RawMessage>): (r: Run)
    ensures Receive !in r.trace
    ensures |batch| == 0 ==> r == Run([], Ok)
  {
    RunBatch(Handling(s, reg, o), batch)
  }

  /** The receive script's next answer; an exhausted script answers an empty OK batch. */
  function NextResponse(receives: seq<ReceiveResponse>): ReceiveResponse
  {
    if |receives| == 0 then ReceiveResponse(true, []) else receives[0]
  }

  /**
   * `FetchAsync`: receive a batch; a non-OK status throws, an empty batch
   * ends the fetch; otherwise process the batch and loop again iff
   * FetchUntilEmpty.
   */
  function Fetch(s: Settings, reg: Registry, o: Oracles, receives: seq<ReceiveResponse>): (r: Run)
    ensures |r.trace| > 0 && r.trace[0] == Receive
    ensures !NextResponse(receives).statusOk ==> r == Run([Receive], Fatal(ReceiveFailed))
    ensures NextResponse(receives).statusOk && |NextResponse(receives).messages| == 0 ==> r == Run([Receive], Ok)
    ensures !s.fetchUntilEmpty ==> Receive !in r.trace[1..]
    decreases |receives|
  {
    var response := NextResponse(receives);
    if !response.statusOk then Run([Receive], Fatal(ReceiveFailed))
    else if |response.messages| == 0 then Run([Receive], Ok)
    else
      var batch := ProcessBatch(s, reg, o, response.messages);
      if batch.completion.Fatal? then Run([Receive] + batch.trace, batch.completion)
      else if !s.fetchUntilEmpty then Run([Receive] + batch.trace, Ok)
      else
        var more := Fetch(s, reg, o, receives[1..]);
        Run([Receive] + batch.trace + more.trace, more.completion)
  }
}

=== FILE: broker_proofs.dfy ===
/**
 * Properties of the dispatch loop: stage order, the delete policy per
 * outcome, failure isolation, the observational version check, fatal errors
 * ending the fetch, and how many receive calls a fetch makes.
 */
module BrokerProofs {
  import opened Wrappers
  import opened Envelope
  import opened BrokerSettings
  import opened Registry
  import opened Processor
  import opened Broker

  /** How often `e` occurs in `t`. */
  function Count(t: seq<Event>, e: Event): nat
    decreases |t|
  {
    if |t| == 0 then 0 else (if t[0] == e then 1 else 0) + Count(t[1..], e)
  }

  lemma {:induction false} CountConcat(a: seq<Event>, b: seq<Event>, e: Event)
    ensures Count(a + b, e) == Count(a, e) + Count(b, e)
    decreases |a|
  {
    if |a| > 0 {
      assert (a + b)[1..] == a[1..] + b;
      CountConcat(a[1..], b, e);
    } else {
      assert a + b == b;
    }
  }

  lemma {:induction false} CountAbsent(t: seq<Event>, e: Event)
    requires e !in t
    ensures Count(t, e) == 0
    decreases |t|
  {
    if |t| > 0 {
      assert e !in t[1..];
      CountAbsent(t[1..], e);
    }
  }

  /** The trace with the version warnings left out. */
  function Unwarned(t: seq<Event>): seq<Event>
    decreases |t|
  {
    if |t| == 0 then [] else (if t[0].Warn? then [] else [t[0]]) + Unwarned(t[1..])
  }

  lemma {:induction false} UnwarnedConcat(a: seq<Event>, b: seq<Event>)
    ensures Unwarned(a + b) == Unwarned(a) + Unwarned(b)
    decreases |a|
  {
    if |a| > 0 {
      assert (a + b)[1..] == a[1..] + b;
      UnwarnedConcat(a[1..], b);
    } else {
      assert a + b == b;
    }
  }

  // ---------------------------------------------------------------------
  // One message's lifecycle

  /** Each event ranks strictly below every later one. */
  ghost predicate InOrder(t: seq<Event>)
  {
    forall i, j :: 0 <= i < j < |t| ==> Rank(t[i]) < Rank(t[j])
  }

  lemma InOrderConcat(a: seq<Event>, b: seq<Event>)
    requires InOrder(a) && InOrder(b)
    requires forall x, y :: x in a && y in b ==> Rank(x) < Rank(y)
    ensures InOrder(a + b)
  {
    forall i, j | 0 <= i < j < |a + b| ensures Rank((a + b)[i]) < Rank((a + b)[j]) {
      if j < |a| {
        assert (a + b)[i] == a[i] && (a + b)[j] == a[j];
      } else if i < |a| {
        assert (a + b)[i] == a[i] && (a + b)[j] == b[j - |a|];
        assert a[i] in a && b[j - |a|] in b;
      } else {
        assert (a + b)[i] == b[i - |a|] && (a + b)[j] == b[j - |a|];
      }
    }
  }

  /** Every step of the lifecycle is a stage, send or delete of this message. */
  lemma LifecycleEvents(s: Settings, tr: Transport, q: QMessage, outcome: Outcome)
    ensures forall e :: e in ProcessMessage(s, tr, q, outcome).events ==>
      (e.StageRun? || e.Send? || e.Delete?) && e.id == q.Id()
  {
    LifecycleSplit(s, tr, q, outcome);
    EnteredStages(q.Id(), StagesEntered(outcome));
    if outcome.Processed? {
      AfterProcessShape(s, tr, q, outcome.reply);
    }
  }

  /** A processor run adds only its Error stage and the error-path delete. */
  lemma RunProcessorEvents(s: Settings, tr: Transport, q: QMessage, script: Script)
    ensures forall e :: e in RunProcessor(s, tr, q, script).events ==>
      (e.StageRun? || e.Send? || e.Delete? || e.Error?) && e.id == q.Id()
  {
    LifecycleEvents(s, tr, q, script.outcome);
  }

  /** Dispatch touches only the dispatched message, after its Processing event and warnings. */
  lemma DispatchEvents(s: Settings, reg: Registry, o: Oracles, q: QMessage)
    requires q.Name().Some?
    ensures forall e :: e in Dispatch(s, reg, o.script, o.transport, q).events ==>
      !e.Receive? && !e.Processing? && !e.Warn? && e.id == q.Id()
  {
    var name := q.Name().value;
    if name in reg.processors && name in reg.models {
      RunProcessorEvents(s, o.transport, q, o.script(Handler(reg.models[name], reg.processors[name]), q.raw));
    }
  }

  /** Everything the broker does with a received message is about that message. */
  lemma HandleMessageEvents(s: Settings, reg: Registry, o: Oracles, m: RawMessage)
    ensures forall e :: e in HandleMessage(s, reg, o, m).events ==> !e.Receive? && e.id == m.id
  {
    if Parse(m).Success? {
      DispatchEvents(s, reg, o, QMessage(m));
    }
  }

  /**
   * After `Process` returns: the send comes before the delete; a send is
   * attempted iff the reply is non-null with a destination; the success
   * delete is attempted iff DeleteIfSuccess and no send failed before it.
   */
  lemma AfterProcessShape(s: Settings, tr: Transport, q: QMessage, reply: Option<Reply>)
    ensures var t := AfterProcess(s, tr, q, reply).events;
      forall i, j :: 0 <= i < j < |t| ==> Rank(t[i]) < Rank(t[j])
    ensures SendsReply(reply) ==> AfterProcess(s, tr, q, reply).events[0] == Send(q.Id(), reply.value.replyToQueueUrl)
    ensures !SendsReply(reply) ==> forall e :: e in AfterProcess(s, tr, q, reply).events ==> !e.Send?
    ensures Delete(q.Id()) in AfterProcess(s, tr, q, reply).events <==>
      s.deleteIfSuccess && (SendsReply(reply) ==> SendAsync(tr, reply.value.message, reply.value.replyToQueueUrl))
    ensures forall e :: e in AfterProcess(s, tr, q, reply).events ==> e.Send? || e.Delete?
  {
  }

  /** The lifecycle's events: the stages entered, then what follows the last stage. */
  function LifecycleRest(s: Settings, tr: Transport, q: QMessage, outcome: Outcome): seq<Event>
  {
    match outcome
    case Processed(reply) => AfterProcess(s, tr, q, reply).events
    case Invalid => if s.deleteIfInvalid then [Delete(q.Id())] else []
    case _ => []
  }

  lemma LifecycleSplit(s: Settings, tr: Transport, q: QMessage, outcome: Outcome)
    ensures ProcessMessage(s, tr, q, outcome).events
      == Entered(q.Id(), StagesEntered(outcome)) + LifecycleRest(s, tr, q, outcome)
    ensures forall e :: e in LifecycleRest(s, tr, q, outcome) ==> e.Send? || e.Delete?
  {
    if outcome.Processed? {
      AfterProcessShape(s, tr, q, outcome.reply);
    }
  }

  /** The stages a message enters, for each processor outcome. */
  lemma LifecycleStages(s: Settings, tr: Transport, q: QMessage, outcome: Outcome)
    ensures forall st ::
      (StageRun(q.Id(), st) in ProcessMessage(s, tr, q, outcome).events <==> StageIndex(st) < StagesEntered(outcome))
  {
    LifecycleSplit(s, tr, q, outcome);
    StagesThen(q.Id(), StagesEntered(outcome), LifecycleRest(s, tr, q, outcome));
  }

  /**
   * Whether a reply send and a delete are attempted, and when the lifecycle
   * throws, for each processor outcome.
   */
  lemma LifecycleEffects(s: Settings, tr: Transport, q: QMessage, outcome: Outcome)
    ensures outcome.Processed? && SendsReply(outcome.reply) ==>
      Send(q.Id(), outcome.reply.value.replyToQueueUrl) in ProcessMessage(s, tr, q, outcome).events
    ensures !(outcome.Processed? && SendsReply(outcome.reply)) ==>
      forall e :: e in ProcessMessage(s, tr, q, outcome).events ==> !e.Send?
    ensures Delete(q.Id()) in ProcessMessage(s, tr, q, outcome).events <==>
      || (outcome.Invalid? && s.deleteIfInvalid)
      || (outcome.Processed? && s.deleteIfSuccess
          && (SendsReply(outcome.reply) ==>
                SendAsync(tr, outcome.reply.value.message, outcome.reply.value.replyToQueueUrl)))
    ensures ProcessMessage(s, tr, q, outcome).failed <==> LifecycleThrows(s, tr, q, outcome)
  {
    var rest := LifecycleRest(s, tr, q, outcome);
    LifecycleSplit(s, tr, q, outcome);
    StagesThen(q.Id(), StagesEntered(outcome), rest);
    if outcome.Processed? {
      AfterProcessShape(s, tr, q, outcome.reply);
      if SendsReply(outcome.reply) {
        assert rest[0] in rest;
      }
    }
  }

  /** Stages followed by events that are not stages: the stage events are exactly the first `n`. */
  lemma StagesThen(id: string, n: nat, rest: seq<Event>)
    requires n <= 4 && forall e :: e in rest ==> !e.StageRun?
    ensures forall st :: (StageRun(id, st) in Entered(id, n) + rest <==> StageIndex(st) < n)
    ensures forall e :: e in Entered(id, n) + rest && !e.StageRun? ==> e in rest
  {
    EnteredStages(id, n);
  }

  /**
   * The lifecycle's steps come in the fixed order Received, deserialize,
   * Validate, Process, reply send, success delete, each at most once.
   */
  lemma LifecycleInOrder(s: Settings, tr: Transport, q: QMessage, outcome: Outcome)
    ensures InOrder(ProcessMessage(s, tr, q, outcome).events)
  {
    var rest := LifecycleRest(s, tr, q, outcome);
    LifecycleSplit(s, tr, q, outcome);
    assert InOrder(rest) by {
      if outcome.Processed? {
        AfterProcessShape(s, tr, q, outcome.reply);
      }
    }
    StagesThenInOrder(q.Id(), StagesEntered(outcome), rest);
  }

  lemma StagesThenInOrder(id: string, n: nat, rest: seq<Event>)
    requires n <= 4 && InOrder(rest)
    requires forall e :: e in rest ==> e.Send? || e.Delete?
    ensures InOrder(Entered(id, n) + rest)
  {
    EnteredInOrder(id, n);
    InOrderConcat(Entered(id, n), rest);
  }

  lemma EnteredInOrder(id: string, n: nat)
    requires n <= 4
    ensures InOrder(Entered(id, n))
    ensures forall e :: e in Entered(id, n) ==> Rank(e) < 4
  {
    var t := Entered(id, n);
    forall i | 0 <= i < |t| ensures Rank(t[i]) == i {
    }
  }

  /**
   * The Error stage runs exactly once when the lifecycle threw (a stage
   * failure, a failed reply send, a failed success or invalid delete) and
   * never otherwise; after it comes only the error-path delete, made iff
   * DeleteIfError and Error itself did not throw. The fetch aborts iff
   * Error throws or that delete fails.
   */
  lemma ErrorIffLifecycleThrows(s: Settings, tr: Transport, q: QMessage, script: Script)
    ensures var thrown := LifecycleThrows(s, tr, q, script.outcome);
      Count(RunProcessor(s, tr, q, script).events, Error(q.Id())) == (if thrown then 1 else 0)
    ensures var life := ProcessMessage(s, tr, q, script.outcome).events;
      var after := if s.deleteIfError && !script.errorFails then [Delete(q.Id())] else [];
      RunProcessor(s, tr, q, script).events
        == if LifecycleThrows(s, tr, q, script.outcome) then life + ([Error(q.Id())] + after) else life
    ensures RunProcessor(s, tr, q, script).fatal.Some? <==>
      LifecycleThrows(s, tr, q, script.outcome)
      && (script.errorFails || (s.deleteIfError && !DeleteAsync(tr, q, AfterError)))
  {
    var id := q.Id();
    var life := ProcessMessage(s, tr, q, script.outcome).events;
    LifecycleStages(s, tr, q, script.outcome);
    LifecycleEffects(s, tr, q, script.outcome);
    assert Error(id) !in life;
    var after := if s.deleteIfError && !script.errorFails then [Delete(id)] else [];
    if LifecycleThrows(s, tr, q, script.outcome) {
      assert RunProcessor(s, tr, q, script).events == life + ([Error(id)] + after);
      ErrorOnce(life, after, id);
    } else {
      CountAbsent(life, Error(id));
    }
  }

  /**
   * A stage that throws ends the lifecycle: no later stage and no send; the
   * Error stage runs exactly once; the message is deleted iff DeleteIfError
   * (and Error itself did not throw).
   */
  lemma StageFailureIsolated(s: Settings, tr: Transport, q: QMessage, script: Script)
    requires StageThrows(script.outcome)
    ensures forall st :: StageRun(q.Id(), st) in RunProcessor(s, tr, q, script).events <==> StageIndex(st) < StagesEntered(script.outcome)
    ensures forall e :: e in RunProcessor(s, tr, q, script).events ==> !e.Send?
    ensures Count(RunProcessor(s, tr, q, script).events, Error(q.Id())) == 1
    ensures Delete(q.Id()) in RunProcessor(s, tr, q, script).events <==> s.deleteIfError && !script.errorFails
  {
    var id := q.Id();
    var after := if s.deleteIfError && !script.errorFails then [Delete(id)] else [];
    StageThrowTrace(s, tr, q, script);
    StagesThenError(id, StagesEntered(script.outcome), after);
  }

  /** Facts about a trace of stages, then Error, then at most a delete. */
  lemma StagesThenError(id: string, n: nat, after: seq<Event>)
    requires n <= 4 && (after == [] || after == [Delete(id)])
    ensures var t := Entered(id, n) + ([Error(id)] + after);
      && (forall st :: StageRun(id, st) in t <==> StageIndex(st) < n)
      && (forall e :: e in t ==> !e.Send?)
      && Count(t, Error(id)) == 1
      && (Delete(id) in t <==> after != [])
  {
    var stages := Entered(id, n);
    var t := stages + ([Error(id)] + after);
    EnteredStages(id, n);
    forall e | e in t ensures e in stages || e == Error(id) || e in after {
    }
    forall st ensures StageRun(id, st) in t <==> StageRun(id, st) in stages {
    }
    assert Delete(id) !in stages;
    ErrorOnce(stages, after, id);
  }

  /** A stage failure's trace: the stages entered, Error, and the error-path delete if made. */
  lemma StageThrowTrace(s: Settings, tr: Transport, q: QMessage, script: Script)
    requires StageThrows(script.outcome)
    ensures RunProcessor(s, tr, q, script).events == Entered(q.Id(), StagesEntered(script.outcome))
      + ([Error(q.Id())] + if s.deleteIfError && !script.errorFails then [Delete(q.Id())] else [])
  {
    assert ProcessMessage(s, tr, q, script.outcome) == Lifecycle(Entered(q.Id(), StagesEntered(script.outcome)), true);
  }

  lemma ErrorOnce(stages: seq<Event>, after: seq<Event>, id: string)
    requires Error(id) !in stages && Error(id) !in after
    ensures Count(stages + ([Error(id)] + after), Error(id)) == 1
  {
    CountAbsent(stages, Error(id));
    CountConcat(stages, [Error(id)] + after, Error(id));
    CountConcat([Error(id)], after, Error(id));
    CountAbsent(after, Error(id));
  }

  /** The first `n` stages are stage events of this message, exactly those of index below `n`. */
  lemma EnteredStages(id: string, n: nat)
    requires n <= 4
    ensures forall e :: e in Entered(id, n) ==> e.StageRun? && e.id == id
    ensures forall st :: StageRun(id, st) in Entered(id, n) <==> StageIndex(st) < n
  {
    var t := Entered(id, n);
    forall i | 0 <= i < |t| ensures t[i] == StageRun(id, t[i].stage) && StageIndex(t[i].stage) == i {
    }
    forall st | StageIndex(st) < n ensures StageRun(id, st) in t {
      assert t[StageIndex(st)] == StageRun(id, st);
    }
  }

  /** A message Validate marks invalid is never processed, sends nothing, and is deleted iff DeleteIfInvalid. */
  lemma InvalidNeverProcessed(s: Settings, tr: Transport, q: QMessage, script: Script)
    requires script.outcome.Invalid?
    ensures StageRun(q.Id(), Process) !in RunProcessor(s, tr, q, script).events
    ensures forall e :: e in RunProcessor(s, tr, q, script).events ==> !e.Send?
    ensures Delete(q.Id()) in RunProcessor(s, tr, q, script).events <==> s.deleteIfInvalid
    ensures !s.deleteIfInvalid ==> Error(q.Id()) !in RunProcessor(s, tr, q, script).events
  {
    var life := ProcessMessage(s, tr, q, script.outcome);
    assert StageRun(q.Id(), Process) !in life.events;
  }

  /**
   * With the transport answering OK, a processed message never reaches
   * Error; its reply is sent iff non-null with a destination; and it is
   * deleted iff DeleteIfSuccess.
   */
  lemma SuccessPath(s: Settings, tr: Transport, q: QMessage, script: Script)
    requires script.outcome.Processed?
    requires var reply := script.outcome.reply;
      SendsReply(reply) ==> SendAsync(tr, reply.value.message, reply.value.replyToQueueUrl)
    requires DeleteAsync(tr, q, AfterSuccess)
    ensures RunProcessor(s, tr, q, script) == Step(ProcessMessage(s, tr, q, script.outcome).events, None)
    ensures Error(q.Id()) !in RunProcessor(s, tr, q, script).events
    ensures StageRun(q.Id(), Process) in RunProcessor(s, tr, q, script).events
    ensures SendsReply(script.outcome.reply) ==>
      Send(q.Id(), script.outcome.reply.value.replyToQueueUrl) in RunProcessor(s, tr, q, script).events
    ensures !SendsReply(script.outcome.reply) ==> forall e :: e in RunProcessor(s, tr, q, script).events ==> !e.Send?
    ensures Delete(q.Id()) in RunProcessor(s, tr, q, script).events <==> s.deleteIfSuccess
  {
    LifecycleStages(s, tr, q, script.outcome);
    LifecycleEffects(s, tr, q, script.outcome);
    assert !LifecycleThrows(s, tr, q, script.outcome);
  }

  /** The success-path delete failing is caught: Error runs once, and only the error-path delete can abort. */
  lemma FailedSuccessDeleteRoutesToError(s: Settings, tr: Transport, q: QMessage, script: Script)
    requires script.outcome.Processed? && s.deleteIfSuccess && !DeleteAsync(tr, q, AfterSuccess)
    requires var reply := script.outcome.reply;
      SendsReply(reply) ==> SendAsync(tr, reply.value.message, reply.value.replyToQueueUrl)
    ensures Count(RunProcessor(s, tr, q, script).events, Error(q.Id())) == 1
    ensures RunProcessor(s, tr, q, script).fatal.Some? <==>
      script.errorFails || (s.deleteIfError && !DeleteAsync(tr, q, AfterError))
  {
    ErrorIffLifecycleThrows(s, tr, q, script);
  }

  /**
   * A non-OK reply send throws inside the `try`: the success delete is not
   * made, Error runs once, and the only delete is the error-path one.
   */
  lemma FailedSendRoutesToError(s: Settings, tr: Transport, q: QMessage, script: Script)
    requires script.outcome.Processed? && SendsReply(script.outcome.reply)
    requires !SendAsync(tr, script.outcome.reply.value.message, script.outcome.reply.value.replyToQueueUrl)
    ensures Count(RunProcessor(s, tr, q, script).events, Error(q.Id())) == 1
    ensures Delete(q.Id()) in RunProcessor(s, tr, q, script).events <==> s.deleteIfError && !script.errorFails
    ensures RunProcessor(s, tr, q, script).fatal.Some? <==>
      script.errorFails || (s.deleteIfError && !DeleteAsync(tr, q, AfterError))
  {
    var life := ProcessMessage(s, tr, q, script.outcome).events;
    LifecycleEffects(s, tr, q, script.outcome);
    ErrorIffLifecycleThrows(s, tr, q, script);
    assert Delete(q.Id()) !in life;
  }

  /** A non-OK delete of an invalid message throws inside the `try`: Error runs once. */
  lemma FailedInvalidDeleteRoutesToError(s: Settings, tr: Transport, q: QMessage, script: Script)
    requires script.outcome.Invalid? && s.deleteIfInvalid && !DeleteAsync(tr, q, AfterInvalid)
    ensures Count(RunProcessor(s, tr, q, script).events, Error(q.Id())) == 1
    ensures RunProcessor(s, tr, q, script).fatal.Some? <==>
      script.errorFails || (s.deleteIfError && !DeleteAsync(tr, q, AfterError))
  {
    ErrorIffLifecycleThrows(s, tr, q, script);
  }

  /**
   * The error-path delete is outside any `try`: once Error has returned,
   * its status alone decides whether the fetch aborts.
   */
  lemma ErrorDeleteStatus(s: Settings, tr: Transport, q: QMessage, script: Script)
    requires LifecycleThrows(s, tr, q, script.outcome) && !script.errorFails && s.deleteIfError
    ensures RunProcessor(s, tr, q, script).fatal
      == if DeleteAsync(tr, q, AfterError) then None else Some(ErrorDeleteFailed(q.Id()))
  {
    LifecycleEffects(s, tr, q, script.outcome);
  }

  // ---------------------------------------------------------------------
  // One received message

  /** The message parses, its version compares, and both registry maps know its name. */
  ghost predicate Dispatched(reg: Registry, o: Oracles, m: RawMessage)
  {
    && Parse(m).Success?
    && o.compare(m.attributes[VersionKey]).Some?
    && m.attributes[NameKey] in reg.processors
    && m.attributes[NameKey] in reg.models
  }

  /** The script of the fresh processor a dispatched message gets. */
  ghost function ScriptFor(reg: Registry, o: Oracles, m: RawMessage): Script
    requires Dispatched(reg, o, m)
  {
    var name := m.attributes[NameKey];
    o.script(Handler(reg.models[name], reg.processors[name]), m)
  }

  /**
   * A message that parses and whose version compares: the Processing
   * event, the version warning if any, then the dispatch.
   */
  lemma AcceptedMessage(s: Settings, reg: Registry, o: Oracles, m: RawMessage)
    requires Parse(m).Success? && o.compare(m.attributes[VersionKey]).Some?
    ensures var c := o.compare(m.attributes[VersionKey]).value;
      var tail := Dispatch(s, reg, o.script, o.transport, QMessage(m));
      HandleMessage(s, reg, o, m) == Step([Processing(m.id)] + VersionWarnings(m.id, c) + tail.events, tail.fatal)
  {
  }

  /**
   * A dispatched message gets exactly one Processing event, enters exactly
   * the stages its processor's outcome reaches, runs Error once iff the
   * lifecycle threw, and is fatal exactly when that processor run is.
   */
  lemma DispatchedRunsProcessor(s: Settings, reg: Registry, o: Oracles, m: RawMessage)
    requires Dispatched(reg, o, m)
    ensures var t := HandleMessage(s, reg, o, m).events;
      forall st :: StageRun(m.id, st) in t <==> StageIndex(st) < StagesEntered(ScriptFor(reg, o, m).outcome)
    ensures Count(HandleMessage(s, reg, o, m).events, Error(m.id))
      == if LifecycleThrows(s, o.transport, QMessage(m), ScriptFor(reg, o, m).outcome) then 1 else 0
    ensures Count(HandleMessage(s, reg, o, m).events, Processing(m.id)) == 1
    ensures HandleMessage(s, reg, o, m).fatal == RunProcessor(s, o.transport, QMessage(m), ScriptFor(reg, o, m)).fatal
  {
    var q := QMessage(m);
    var script := ScriptFor(reg, o, m);
    var w := VersionWarnings(m.id, o.compare(m.attributes[VersionKey]).value);
    var run := RunProcessor(s, o.transport, q, script).events;
    AcceptedMessage(s, reg, o, m);
    assert HandleMessage(s, reg, o, m).events == [Processing(m.id)] + w + run;
    RunProcessorStages(s, o.transport, q, script);
    ErrorIffLifecycleThrows(s, o.transport, q, script);
    RunProcessorEvents(s, o.transport, q, script);
    assert forall e :: e in w ==> e.Warn? by {
      assert w == [] || w == [Warn(m.id, w[0].drift)];
    }
    AcceptedPrefix(m.id, w, run);
  }

  /** A processor run enters the stages of its lifecycle; Error and its delete add none. */
  lemma RunProcessorStages(s: Settings, tr: Transport, q: QMessage, script: Script)
    ensures forall st :: (StageRun(q.Id(), st) in RunProcessor(s, tr, q, script).events
      <==> StageIndex(st) < StagesEntered(script.outcome))
  {
    var life := ProcessMessage(s, tr, q, script.outcome).events;
    var after := if s.deleteIfError && !script.errorFails then [Delete(q.Id())] else [];
    LifecycleStages(s, tr, q, script.outcome);
    ErrorIffLifecycleThrows(s, tr, q, script);
    forall st ensures StageRun(q.Id(), st) in life + ([Error(q.Id())] + after) <==> StageRun(q.Id(), st) in life {
    }
  }

  /** Processing and warnings in front of a processor run add no stage and no Error, and one Processing. */
  lemma AcceptedPrefix(id: string, w: seq<Event>, run: seq<Event>)
    requires forall e :: e in w ==> e.Warn?
    requires forall e :: e in run ==> e.StageRun? || e.Send? || e.Delete? || e.Error?
    ensures forall st :: (StageRun(id, st) in [Processing(id)] + w + run <==> StageRun(id, st) in run)
    ensures Count([Processing(id)] + w + run, Error(id)) == Count(run, Error(id))
    ensures Count([Processing(id)] + w + run, Processing(id)) == 1
  {
    CountConcat([Processing(id)] + w, run, Error(id));
    CountAbsent([Processing(id)] + w, Error(id));
    CountConcat([Processing(id)] + w, run, Processing(id));
    CountConcat([Processing(id)], w, Processing(id));
    CountAbsent(w, Processing(id));
    CountAbsent(run, Processing(id));
  }

  /** A malformed or unregistered message is passed over: no stage, send, delete or Error. */
  lemma SkippedMessageUntouched(s: Settings, reg: Registry, o: Oracles, m: RawMessage)
    requires
      || Parse(m).Failure?
      || (Parse(m).Success? && o.compare(m.attributes[VersionKey]).Some? && m.attributes[NameKey] !in reg.processors)
    ensures HandleMessage(s, reg, o, m).fatal.None?
    ensures forall e :: e in HandleMessage(s, reg, o, m).events ==>
              !e.StageRun? && !e.Send? && !e.Delete? && !e.Error?
    ensures Parse(m).Success? ==>
              var t := HandleMessage(s, reg, o, m).events; t[|t| - 1] == Skip(m.id, NoProcessor)
  {
    if Parse(m).Success? {
      AcceptedMessage(s, reg, o, m);
    }
  }

  /** Comparison -1 gives exactly one "older" warning, 1 exactly one "newer", anything else none. */
  lemma VersionWarningCount(s: Settings, reg: Registry, o: Oracles, m: RawMessage, d: Drift)
    requires Parse(m).Success? && o.compare(m.attributes[VersionKey]).Some?
    ensures var c := o.compare(m.attributes[VersionKey]).value;
      Count(HandleMessage(s, reg, o, m).events, Warn(m.id, d))
        == (if (d == Older && c == -1) || (d == Newer && c == 1) then 1 else 0)
  {
    var c := o.compare(m.attributes[VersionKey]).value;
    var warnings := VersionWarnings(m.id, c);
    var tail := Dispatch(s, reg, o.script, o.transport, QMessage(m)).events;
    AcceptedMessage(s, reg, o, m);
    assert Warn(m.id, d) !in tail by {
      DispatchEvents(s, reg, o, QMessage(m));
    }
    WarnCount(warnings, tail, m.id, d);
  }

  lemma WarnCount(warnings: seq<Event>, tail: seq<Event>, id: string, d: Drift)
    requires Warn(id, d) !in tail
    ensures Count([Processing(id)] + warnings + tail, Warn(id, d)) == Count(warnings, Warn(id, d))
  {
    CountConcat([Processing(id)] + warnings, tail, Warn(id, d));
    CountConcat([Processing(id)], warnings, Warn(id, d));
    CountAbsent(tail, Warn(id, d));
    CountAbsent([Processing(id)], Warn(id, d));
  }

  /**
   * The version check is observational: whatever the comparator answers,
   * the message is dispatched the same way, warnings aside.
   */
  lemma VersionCheckObservational(s: Settings, reg: Registry, o: Oracles, m: RawMessage, compare: string -> Option<int>)
    requires Parse(m).Success?
    requires o.compare(m.attributes[VersionKey]).Some? && compare(m.attributes[VersionKey]).Some?
    ensures Unwarned(HandleMessage(s, reg, o, m).events) == Unwarned(HandleMessage(s, reg, o.(compare := compare), m).events)
    ensures HandleMessage(s, reg, o, m).fatal == HandleMessage(s, reg, o.(compare := compare), m).fatal
  {
    var q := QMessage(m);
    var o' := o.(compare := compare);
    var w := VersionWarnings(m.id, o.compare(m.attributes[VersionKey]).value);
    var w' := VersionWarnings(m.id, compare(m.attributes[VersionKey]).value);
    var tail := Dispatch(s, reg, o.script, o.transport, q);
    UnwarnedConcat([Processing(m.id)] + w, tail.events);
    UnwarnedConcat([Processing(m.id)], w);
    UnwarnedConcat([Processing(m.id)] + w', tail.events);
    UnwarnedConcat([Processing(m.id)], w');
  }

  // ---------------------------------------------------------------------
  // Fatal errors

  /**
   * The version is parsed outside the per-message `try`: a message is fatal
   * with VersionUnparsable iff it parses and its version does not, whether
   * or not its name is registered.
   */
  lemma VersionUnparsableIff(s: Settings, reg: Registry, o: Oracles, m: RawMessage)
    ensures HandleMessage(s, reg, o, m).fatal == Some(VersionUnparsable(m.id)) <==>
      Parse(m).Success? && o.compare(m.attributes[VersionKey]).None?
  {
    if Parse(m).Success? && o.compare(m.attributes[VersionKey]).Some? {
      AcceptedMessage(s, reg, o, m);
    }
  }

  /**
   * The model-type lookup also sits outside the `try`: a message is fatal
   * with ModelTypeMissing iff its name is in the processor map but not in
   * the model map.
   */
  lemma ModelTypeMissingIff(s: Settings, reg: Registry, o: Oracles, m: RawMessage)
    ensures HandleMessage(s, reg, o, m).fatal == Some(ModelTypeMissing(m.id)) <==>
      && Parse(m).Success?
      && o.compare(m.attributes[VersionKey]).Some?
      && m.attributes[NameKey] in reg.processors
      && m.attributes[NameKey] !in reg.models
  {
    if Parse(m).Success? && o.compare(m.attributes[VersionKey]).Some? {
      AcceptedMessage(s, reg, o, m);
    }
  }

  /** With both maps holding the same names, the model-type lookup never throws. */
  lemma ConsistentRegistryFindsModel(s: Settings, reg: Registry, o: Oracles, m: RawMessage)
    requires reg.Consistent()
    ensures var f := HandleMessage(s, reg, o, m).fatal;
      f.Some? ==> !f.value.ModelTypeMissing?
  {
    if Parse(m).Success? && o.compare(m.attributes[VersionKey]).Some? {
      AcceptedMessage(s, reg, o, m);
    }
  }

  /** A registry built from empty by `AddMessageType` calls never misses a model type. */
  lemma RegisteredBrokerFindsModel(s: Settings, regs: seq<Registration>, o: Oracles, m: RawMessage)
    requires RegisterAll(Empty, regs).Success?
    ensures var f := HandleMessage(s, RegisterAll(Empty, regs).value, o, m).fatal;
      f.Some? ==> !f.value.ModelTypeMissing?
  {
    assert Empty.Consistent();
    ConsistentRegistryFindsModel(s, RegisterAll(Empty, regs).value, o, m);
  }

  /**
   * The first fatal message of a batch ends the whole fetch: when message
   * `k` of the first batch is the first fatal one and its version does not
   * parse, the fetch stops right after its Processing event.
   */
  lemma UnparsableVersionEndsFetch(s: Settings, reg: Registry, o: Oracles, receives: seq<ReceiveResponse>, k: nat)
    requires |receives| > 0 && receives[0].statusOk && k < |receives[0].messages|
    requires NoneFatalBefore(Handling(s, reg, o), receives[0].messages, k)
    requires var m := receives[0].messages[k];
      Parse(m).Success? && o.compare(m.attributes[VersionKey]).None?
    ensures var m := receives[0].messages[k];
      Fetch(s, reg, o, receives)
        == Run([Receive] + (EventsBefore(Handling(s, reg, o), receives[0].messages, k) + [Processing(m.id)]),
               Fatal(VersionUnparsable(m.id)))
  {
    var batch := receives[0].messages;
    var m := batch[k];
    var handle := Handling(s, reg, o);
    assert handle(m) == Step([Processing(m.id)], Some(VersionUnparsable(m.id)));
    BatchIsolation(handle, batch, k);
    assert ProcessBatch(s, reg, o, batch)
      == Run(EventsBefore(handle, batch, k) + [Processing(m.id)], Fatal(VersionUnparsable(m.id)));
  }

  /** The event a fatal error is raised at. */
  ghost predicate IsCause(f: FatalError, e: Event)
  {
    match f
    case ReceiveFailed => e == Receive
    case VersionUnparsable(id) => e == Processing(id)
    case ModelTypeMissing(id) => e == Processing(id) || e == Warn(id, Older) || e == Warn(id, Newer)
    case ErrorStageFailed(id) => e == Error(id)
    case ErrorDeleteFailed(id) => e == Delete(id)
  }

  /** A fatal step's last event is the one that raised its error. */
  ghost predicate FatalAtEnd(step: Step)
  {
    step.fatal.Some? ==> |step.events| > 0 && IsCause(step.fatal.value, step.events[|step.events| - 1])
  }

  lemma HandleFatalIsLast(s: Settings, reg: Registry, o: Oracles, m: RawMessage)
    ensures FatalAtEnd(HandleMessage(s, reg, o, m))
  {
  }

  /** The first fatal message ends the batch: nothing after its cause is done. */
  lemma {:induction false} BatchFatalIsLast(handle: RawMessage -> Step, batch: seq<RawMessage>)
    requires forall m :: FatalAtEnd(handle(m))
    requires RunBatch(handle, batch).completion.Fatal?
    ensures var r := RunBatch(handle, batch);
      |r.trace| > 0 && IsCause(r.completion.error, r.trace[|r.trace| - 1])
    decreases |batch|
  {
    var first := handle(batch[0]);
    assert FatalAtEnd(first);
    if first.fatal.None? {
      var rest := RunBatch(handle, batch[1..]);
      BatchFatalIsLast(handle, batch[1..]);
      assert RunBatch(handle, batch).trace == first.events + rest.trace;
    }
  }

  /** The broker's own batch loop stops at the event that raised its fatal error. */
  lemma ProcessBatchFatalIsLast(s: Settings, reg: Registry, o: Oracles, batch: seq<RawMessage>)
    requires ProcessBatch(s, reg, o, batch).completion.Fatal?
    ensures var r := ProcessBatch(s, reg, o, batch);
      |r.trace| > 0 && IsCause(r.completion.error, r.trace[|r.trace| - 1])
  {
    forall m ensures FatalAtEnd(Handling(s, reg, o)(m)) {
      HandleFatalIsLast(s, reg, o, m);
    }
    BatchFatalIsLast(Handling(s, reg, o), batch);
  }

  /** A fatal error ends the whole fetch: the trace stops at the event that raised it. */
  lemma {:induction false} FetchFatalIsLast(s: Settings, reg: Registry, o: Oracles, receives: seq<ReceiveResponse>)
    requires Fetch(s, reg, o, receives).completion.Fatal?
    ensures var r := Fetch(s, reg, o, receives);
      IsCause(r.completion.error, r.trace[|r.trace| - 1])
    decreases |receives|
  {
    var response := NextResponse(receives);
    if response.statusOk && |response.messages| > 0 {
      var batch := ProcessBatch(s, reg, o, response.messages);
      if batch.completion.Fatal? {
        ProcessBatchFatalIsLast(s, reg, o, response.messages);
        assert Fetch(s, reg, o, receives) == Run([Receive] + batch.trace, batch.completion);
        LastOfConcat([Receive], batch.trace);
      } else {
        var more := Fetch(s, reg, o, receives[1..]);
        FetchFatalIsLast(s, reg, o, receives[1..]);
        assert |more.trace| > 0 && IsCause(more.completion.error, more.trace[|more.trace| - 1]);
        assert s.fetchUntilEmpty && |receives| > 0 && response == receives[0];
        FetchStep(s, reg, o, receives);
        LastOfConcat([Receive] + batch.trace, more.trace);
      }
    }
  }

  /** The first `k` receive answers each brought a non-empty batch that the broker completed. */
  ghost predicate BatchesComplete(s: Settings, reg: Registry, o: Oracles, receives: seq<ReceiveResponse>, k: nat)
    decreases k
  {
    k == 0 ||
      (&& |receives| > 0
       && receives[0].statusOk && |receives[0].messages| > 0
       && ProcessBatch(s, reg, o, receives[0].messages).completion.Ok?
       && BatchesComplete(s, reg, o, receives[1..], k - 1))
  }

  /**
   * After `k` receives that each brought a batch the broker completed, a
   * FetchUntilEmpty fetch goes on exactly as a fetch of the remaining
   * receive answers: same completion, and its trace ends with that fetch's.
   */
  lemma {:induction false} FetchResumes(s: Settings, reg: Registry, o: Oracles, receives: seq<ReceiveResponse>, k: nat)
    requires k <= |receives| && (k > 0 ==> s.fetchUntilEmpty)
    requires BatchesComplete(s, reg, o, receives, k)
    ensures Fetch(s, reg, o, receives).completion == Fetch(s, reg, o, receives[k..]).completion
    ensures var t := Fetch(s, reg, o, receives).trace;
      var u := Fetch(s, reg, o, receives[k..]).trace;
      |u| <= |t| && t[|t| - |u|..] == u
    decreases k
  {
    if k == 0 {
      assert receives[k..] == receives;
    } else {
      var batch := ProcessBatch(s, reg, o, receives[0].messages);
      var more := Fetch(s, reg, o, receives[1..]);
      FetchStep(s, reg, o, receives);
      FetchResumes(s, reg, o, receives[1..], k - 1);
      assert receives[1..][k - 1..] == receives[k..];
      SuffixOfConcat([Receive] + batch.trace, more.trace, Fetch(s, reg, o, receives[k..]).trace);
    }
  }

  /** One completed batch under FetchUntilEmpty: the receive, the batch, then the rest of the fetch. */
  lemma FetchStep(s: Settings, reg: Registry, o: Oracles, receives: seq<ReceiveResponse>)
    requires s.fetchUntilEmpty && |receives| > 0 && receives[0].statusOk && |receives[0].messages| > 0
    requires ProcessBatch(s, reg, o, receives[0].messages).completion.Ok?
    ensures var batch := ProcessBatch(s, reg, o, receives[0].messages);
      var more := Fetch(s, reg, o, receives[1..]);
      Fetch(s, reg, o, receives) == Run([Receive] + batch.trace + more.trace, more.completion)
  {
    assert NextResponse(receives) == receives[0];
  }

  lemma SuffixOfConcat(a: seq<Event>, b: seq<Event>, u: seq<Event>)
    requires |u| <= |b| && b[|b| - |u|..] == u
    ensures |u| <= |a + b| && (a + b)[|a + b| - |u|..] == u
  {
    assert (a + b)[|a + b| - |u|..] == b[|b| - |u|..];
  }

  /**
   * A non-OK status on receive `k`, after `k` completed batches, aborts the
   * fetch with ReceiveFailed, and that receive is its last event.
   */
  lemma ReceiveFailureEndsFetch(s: Settings, reg: Registry, o: Oracles, receives: seq<ReceiveResponse>, k: nat)
    requires k < |receives| && (k > 0 ==> s.fetchUntilEmpty) && !receives[k].statusOk
    requires BatchesComplete(s, reg, o, receives, k)
    ensures var r := Fetch(s, reg, o, receives);
      r.completion == Fatal(ReceiveFailed) && r.trace[|r.trace| - 1] == Receive
  {
    FetchResumes(s, reg, o, receives, k);
    assert NextResponse(receives[k..]) == receives[k];
  }

  /**
   * A batch that ends fatally, after `k` completed batches, ends the fetch
   * with that batch's error: the trace ends with the receive and the batch,
   * and no further receive is made.
   */
  lemma FatalBatchEndsFetch(s: Settings, reg: Registry, o: Oracles, receives: seq<ReceiveResponse>, k: nat)
    requires k < |receives| && (k > 0 ==> s.fetchUntilEmpty)
    requires BatchesComplete(s, reg, o, receives, k)
    requires receives[k].statusOk && |receives[k].messages| > 0
    requires ProcessBatch(s, reg, o, receives[k].messages).completion.Fatal?
    ensures var r := Fetch(s, reg, o, receives);
      var batch := ProcessBatch(s, reg, o, receives[k].messages);
      && r.completion == batch.completion
      && |[Receive] + batch.trace| <= |r.trace|
      && r.trace[|r.trace| - |[Receive] + batch.trace|..] == [Receive] + batch.trace
  {
    FetchResumes(s, reg, o, receives, k);
    assert NextResponse(receives[k..]) == receives[k];
  }

  lemma LastOfConcat(a: seq<Event>, b: seq<Event>)
    requires |b| > 0
    ensures (a + b)[|a + b| - 1] == b[|b| - 1]
  {
  }

  // ---------------------------------------------------------------------
  // Batches

  /** No message before position `k` of the batch raises a fatal error. */
  ghost predicate NoneFatalBefore(handle: RawMessage -> Step, batch: seq<RawMessage>, k: int)
  {
    forall i :: 0 <= i < k && i < |batch| ==> handle(batch[i]).fatal.None?
  }

  /** The events of the first `k` messages of the batch, each handled on its own. */
  function EventsBefore(handle: RawMessage -> Step, batch: seq<RawMessage>, k: nat): seq<Event>
    requires k <= |batch|
    decreases k
  {
    if k == 0 then [] else handle(batch[0]).events + EventsBefore(handle, batch[1..], k - 1)
  }

  /**
   * Failure isolation: when no earlier message was fatal, the batch's trace
   * starts with the earlier messages' events followed by message `k`'s
   * events, each exactly as handled on its own, whatever happened to the
   * messages before it; if message `k` is fatal, the batch ends there with
   * its error.
   */
  lemma {:induction false} BatchIsolation(handle: RawMessage -> Step, batch: seq<RawMessage>, k: nat)
    requires k < |batch| && NoneFatalBefore(handle, batch, k)
    ensures EventsBefore(handle, batch, k) + handle(batch[k]).events <= RunBatch(handle, batch).trace
    ensures handle(batch[k]).fatal.Some? ==>
      RunBatch(handle, batch)
        == Run(EventsBefore(handle, batch, k) + handle(batch[k]).events, Fatal(handle(batch[k]).fatal.value))
    decreases k
  {
    var first := handle(batch[0]);
    var h := handle(batch[k]).events;
    if k == 0 {
      assert EventsBefore(handle, batch, k) + h == first.events;
    } else {
      var rest := RunBatch(handle, batch[1..]);
      var pre := EventsBefore(handle, batch[1..], k - 1);
      assert batch[1..][k - 1] == batch[k];
      assert NoneFatalBefore(handle, batch[1..], k - 1) by {
        forall i | 0 <= i < k - 1 && i < |batch[1..]| ensures handle(batch[1..][i]).fatal.None? {
          assert batch[1..][i] == batch[i + 1];
        }
      }
      BatchIsolation(handle, batch[1..], k - 1);
      assert first.fatal.None?;
      assert RunBatch(handle, batch) == Run(first.events + rest.trace, rest.completion);
      assert EventsBefore(handle, batch, k) + h == first.events + (pre + h);
    }
  }

  /** A batch completes iff none of its messages raises a fatal error. */
  lemma {:induction false} BatchCompletes(handle: RawMessage -> Step, batch: seq<RawMessage>)
    ensures RunBatch(handle, batch).completion == Ok <==> NoneFatalBefore(handle, batch, |batch|)
    decreases |batch|
  {
    if |batch| > 0 {
      BatchCompletes(handle, batch[1..]);
      if NoneFatalBefore(handle, batch[1..], |batch[1..]|) && handle(batch[0]).fatal.None? {
        forall i | 0 <= i < |batch| ensures handle(batch[i]).fatal.None? {
          if i > 0 { assert batch[i] == batch[1..][i - 1]; }
        }
      }
      if NoneFatalBefore(handle, batch, |batch|) {
        forall i | 0 <= i < |batch[1..]| ensures handle(batch[1..][i]).fatal.None? {
          assert batch[1..][i] == batch[i + 1];
        }
      }
    }
  }

  // ---------------------------------------------------------------------
  // Receive calls

  /** How many leading receive answers are OK and non-empty. */
  function LeadingBatches(receives: seq<ReceiveResponse>): (k: nat)
    ensures k <= |receives|
    decreases |receives|
  {
    if |receives| > 0 && receives[0].statusOk && |receives[0].messages| > 0
    then 1 + LeadingBatches(receives[1..])
    else 0
  }

  lemma {:induction false} BatchHasNoReceive(s: Settings, reg: Registry, o: Oracles, batch: seq<RawMessage>)
    ensures Count(ProcessBatch(s, reg, o, batch).trace, Receive) == 0
  {
    CountAbsent(ProcessBatch(s, reg, o, batch).trace, Receive);
  }

  /** Without FetchUntilEmpty a fetch issues exactly one receive call. */
  lemma SingleReceive(s: Settings, reg: Registry, o: Oracles, receives: seq<ReceiveResponse>)
    requires !s.fetchUntilEmpty
    ensures Count(Fetch(s, reg, o, receives).trace, Receive) == 1
  {
    var t := Fetch(s, reg, o, receives).trace;
    assert t == [Receive] + t[1..];
    CountConcat([Receive], t[1..], Receive);
    CountAbsent(t[1..], Receive);
  }

  /**
   * With FetchUntilEmpty, a fetch that completes has received every leading
   * non-empty batch and then one empty answer: receives = batches + 1.
   */
  lemma {:induction false} ReceivesUntilEmpty(s: Settings, reg: Registry, o: Oracles, receives: seq<ReceiveResponse>)
    requires s.fetchUntilEmpty && Fetch(s, reg, o, receives).completion.Ok?
    ensures Count(Fetch(s, reg, o, receives).trace, Receive) == LeadingBatches(receives) + 1
    decreases |receives|
  {
    var response := NextResponse(receives);
    var t := Fetch(s, reg, o, receives).trace;
    if response.statusOk && |response.messages| > 0 {
      var batch := ProcessBatch(s, reg, o, response.messages);
      var more := Fetch(s, reg, o, receives[1..]);
      assert t == [Receive] + (batch.trace + more.trace);
      ReceivesUntilEmpty(s, reg, o, receives[1..]);
      BatchHasNoReceive(s, reg, o, response.messages);
      CountOneMoreReceive(batch.trace, more.trace);
    } else {
      assert t == [Receive];
    }
  }

  lemma CountOneMoreReceive(batch: seq<Event>, more: seq<Event>)
    requires Count(batch, Receive) == 0
    ensures Count([Receive] + (batch + more), Receive) == Count(more, Receive) + 1
  {
    CountConcat([Receive], batch + more, Receive);
    CountConcat(batch, more, Receive);
  }

  /** A completed FetchUntilEmpty stops at an empty OK answer (or the exhausted script). */
  lemma {:induction false} StopsAtEmpty(s: Settings, reg: Registry, o: Oracles, receives: seq<ReceiveResponse>)
    requires s.fetchUntilEmpty && Fetch(s, reg, o, receives).completion.Ok?
    ensures var k := LeadingBatches(receives);
      k == |receives| || (receives[k].statusOk && |receives[k].messages| == 0)
    decreases |receives|
  {
    var response := NextResponse(receives);
    if |receives| > 0 && response.statusOk && |response.messages| > 0 {
      StopsAtEmpty(s, reg, o, receives[1..]);
      var j := LeadingBatches(receives[1..]);
      assert LeadingBatches(receives) == j + 1;
      if j < |receives[1..]| {
        assert receives[1..][j] == receives[j + 1];
      }
    }
  }
}

=== FILE: envelope.dfy ===
/**
 * The message envelope (`QMessage`): a raw queue message that carries the two
 * required attributes, the message name and the library version that produced it.
 */
module Envelope {
  import opened Wrappers

  /** Default attribute key holding the message name. */
  const NameKey: string := "qbMessageName"
  /** Default attribute key holding the producing library's version. */
  const VersionKey: string := "qbMessageVersion"
  /** The version this library stamps on outbound messages. */
  const LibraryVersion: string := "1.0.0"

  type Attributes = map<string, string>
  /** One caller-supplied attribute: key and string value. */
  type Attribute = (string, string)

  /** A message as the queue transport delivers it. */
  datatype RawMessage = RawMessage(id: string, body: string, receiptHandle: string, attributes: Attributes)

  /** A queue message seen through the envelope's accessors. */
  datatype QMessage = QMessage(raw: RawMessage) {
    function Id(): string { raw.id }
    function Body(): string { raw.body }
    function MessageAttributes(): Attributes { raw.attributes }
    /** The name attribute's value, or None when the key is absent. */
    function Name(): Option<string> { Lookup(raw.attributes, NameKey) }
    /** The version attribute's value, or None when the key is absent. */
    function Version(): Option<string> { Lookup(raw.attributes, VersionKey) }
  }

  function Lookup(attrs: Attributes, key: string): Option<string>
  {
    if key in attrs then Some(attrs[key]) else None
  }

  /** Why a raw message is not a broker message; the name is checked first. */
  datatype ParseError = MissingName | MissingVersion

  /** Wraps a received message, rejecting it when a required attribute is missing. */
  function Parse(m: RawMessage): (r: Result<QMessage, ParseError>)
    ensures r.Success? <==> NameKey in m.attributes && VersionKey in m.attributes
    ensures r == Failure(MissingName) <==> NameKey !in m.attributes
    ensures r == Failure(MissingVersion) <==> NameKey in m.attributes && VersionKey !in m.attributes
    ensures r.Success? ==>
      && r.value.Id() == m.id
      && r.value.Body() == m.body
      && r.value.MessageAttributes() == m.attributes
      && r.value.Name() == Some(m.attributes[NameKey])
      && r.value.Version() == Some(m.attributes[VersionKey])
  {
    if NameKey !in m.attributes then Failure(MissingName)
    else if VersionKey !in m.attributes then Failure(MissingVersion)
    else Success(QMessage(m))
  }

  /** Overlays the extras onto `base` in order: an existing key is overwritten, a new one inserted. */
  function Merge(base: Attributes, extras: seq<Attribute>): (r: Attributes)
    ensures base.Keys <= r.Keys
    decreases |extras|
  {
    if |extras| == 0 then base
    else Merge(base[extras[0].0 := extras[0].1], extras[1..])
  }

  /** Every key the extras mention. */
  function KeysOf(extras: seq<Attribute>): set<string>
  {
    set i | 0 <= i < |extras| :: extras[i].0
  }

  /** Position `i` holds the last value supplied for `key` among the extras. */
  ghost predicate LastSetAt(extras: seq<Attribute>, key: string, i: int)
  {
    && 0 <= i < |extras|
    && extras[i].0 == key
    && forall j :: i < j < |extras| ==> extras[j].0 != key
  }

  /** The keys of a non-empty extras list: its head's key and its tail's keys. */
  lemma KeysOfCons(extras: seq<Attribute>)
    requires |extras| > 0
    ensures KeysOf(extras) == {extras[0].0} + KeysOf(extras[1..])
  {
    forall k | k in KeysOf(extras) ensures k in {extras[0].0} + KeysOf(extras[1..]) {
      var i :| 0 <= i < |extras| && extras[i].0 == k;
      if i > 0 { assert extras[1..][i - 1] == extras[i]; }
    }
    forall k | k in KeysOf(extras[1..]) ensures k in KeysOf(extras) {
      var i :| 0 <= i < |extras[1..]| && extras[1..][i].0 == k;
      assert extras[i + 1] == extras[1..][i];
    }
  }

  lemma {:induction false} MergeKeys(base: Attributes, extras: seq<Attribute>)
    ensures Merge(base, extras).Keys == base.Keys + KeysOf(extras)
    decreases |extras|
  {
    if |extras| > 0 {
      MergeKeys(base[extras[0].0 := extras[0].1], extras[1..]);
      KeysOfCons(extras);
    }
  }

  /** A key the extras never mention keeps its value from `base`. */
  lemma {:induction false} MergeUntouched(base: Attributes, extras: seq<Attribute>, key: string)
    requires key !in KeysOf(extras)
    ensures key in Merge(base, extras) <==> key in base
    ensures key in base ==> Merge(base, extras)[key] == base[key]
    decreases |extras|
  {
    if |extras| > 0 {
      KeysOfCons(extras);
      MergeUntouched(base[extras[0].0 := extras[0].1], extras[1..], key);
    }
  }

  /** Last-wins: a mentioned key ends up with the last value supplied for it. */
  lemma {:induction false} MergeLastWins(base: Attributes, extras: seq<Attribute>, key: string, i: int)
    requires LastSetAt(extras, key, i)
    ensures key in Merge(base, extras) && Merge(base, extras)[key] == extras[i].1
    decreases |extras|
  {
    var next := base[extras[0].0 := extras[0].1];
    if i == 0 {
      assert key !in KeysOf(extras[1..]) by {
        forall j | 0 <= j < |extras[1..]| ensures extras[1..][j].0 != key {
          assert extras[1..][j] == extras[j + 1];
        }
      }
      MergeUntouched(next, extras[1..], key);
    } else {
      assert LastSetAt(extras[1..], key, i - 1) by {
        forall j | i - 1 < j < |extras[1..]| ensures extras[1..][j].0 != key {
          assert extras[1..][j] == extras[j + 1];
        }
      }
      MergeLastWins(next, extras[1..], key, i - 1);
    }
  }

  /** The attributes every outbound message starts from. */
  function Injected(name: string): Attributes
  {
    map[NameKey := name, VersionKey := LibraryVersion]
  }

  /**
   * Builds an outbound message: the name and the library version are injected,
   * then the extras are overlaid with last-wins semantics, reserved keys included.
   */
  function Outbound(name: string, body: string, extras: seq<Attribute>): (q: QMessage)
    ensures q.Body() == body
    ensures q.MessageAttributes().Keys == {NameKey, VersionKey} + KeysOf(extras)
  {
    MergeKeys(Injected(name), extras);
    QMessage(RawMessage("", body, "", Merge(Injected(name), extras)))
  }

  /** Without colliding extras the outbound message names `name` and the library version. */
  lemma OutboundDefaults(name: string, body: string, extras: seq<Attribute>)
    ensures NameKey !in KeysOf(extras) ==> Outbound(name, body, extras).Name() == Some(name)
    ensures VersionKey !in KeysOf(extras) ==> Outbound(name, body, extras).Version() == Some(LibraryVersion)
  {
    if NameKey !in KeysOf(extras) { MergeUntouched(Injected(name), extras, NameKey); }
    if VersionKey !in KeysOf(extras) { MergeUntouched(Injected(name), extras, VersionKey); }
  }

  /** Each extra key carries the last value supplied for it, even a reserved key. */
  lemma OutboundLastWins(name: string, body: string, extras: seq<Attribute>, key: string, i: int)
    requires LastSetAt(extras, key, i)
    ensures key in Outbound(name, body, extras).MessageAttributes()
    ensures Outbound(name, body, extras).MessageAttributes()[key] == extras[i].1
  {
    MergeLastWins(Injected(name), extras, key, i);
  }

  /** Any outbound message parses back, with its body, name and version intact. */
  lemma RoundTrip(name: string, body: string, extras: seq<Attribute>)
    ensures Parse(Outbound(name, body, extras).raw).Success?
    ensures Parse(Outbound(name, body, extras).raw).value.Body() == body
    ensures NameKey !in KeysOf(extras) ==> Parse(Outbound(name, body, extras).raw).value.Name() == Some(name)
    ensures VersionKey !in KeysOf(extras) ==>
              Parse(Outbound(name, body, extras).raw).value.Version() == Some(LibraryVersion)
    ensures forall i :: LastSetAt(extras, NameKey, i) ==>
              Parse(Outbound(name, body, extras).raw).value.Name() == Some(extras[i].1)
    ensures forall i :: LastSetAt(extras, VersionKey, i) ==>
              Parse(Outbound(name, body, extras).raw).value.Version() == Some(extras[i].1)
  {
    OutboundDefaults(name, body, extras);
    forall i | LastSetAt(extras, NameKey, i)
      ensures Parse(Outbound(name, body, extras).raw).value.Name() == Some(extras[i].1)
    {
      OutboundLastWins(name, body, extras, NameKey, i);
    }
    forall i | LastSetAt(extras, VersionKey, i)
      ensures Parse(Outbound(name, body, extras).raw).value.Version() == Some(extras[i].1)
    {
      OutboundLastWins(name, body, extras, VersionKey, i);
    }
  }
}

=== FILE: processor.dfy ===
/**
 * The processor contract (`QProcessor`) and the reply record (`QReply`).
 * A processor's behaviour on one message is given as a script: the first
 * stage that fails, or what the stages produce when none fails.
 */
module Processor {
  import opened Wrappers
  import opened Envelope

  /** The lifecycle stages the broker drives, in the order it drives them. */
  datatype Stage = Received | Deserialize | Validate | Process

  /** Position of a stage in the lifecycle. */
  function StageIndex(st: Stage): nat
  {
    match st
    case Received => 0
    case Deserialize => 1
    case Validate => 2
    case Process => 3
  }

  /** An outgoing message and the queue to send it to (either may be null/empty). */
  datatype Reply = Reply(message: Option<QMessage>, replyToQueueUrl: string)

  /**
   * How the stages of one message go: `Received` throws, the body does not
   * deserialize, `Validate` throws, `Validate` returns null, `Process`
   * throws, or `Process` returns a (possibly null) reply.
   */
  datatype Outcome =
    | ReceivedFails
    | DeserializeFails
    | ValidateFails
    | Invalid
    | ProcessFails
    | Processed(reply: Option<Reply>)

  /** The scripted behaviour of a fresh processor on one message, `Error` stage included. */
  datatype Script = Script(outcome: Outcome, errorFails: bool)

  /** The stage-failure outcomes: each one throws out of the lifecycle. */
  predicate StageThrows(o: Outcome)
  {
    o.ReceivedFails? || o.DeserializeFails? || o.ValidateFails? || o.ProcessFails?
  }

  /** How many stages a processor with this outcome enters. */
  function StagesEntered(o: Outcome): nat
  {
    match o
    case ReceivedFails => 1
    case DeserializeFails => 2
    case ValidateFails => 3
    case Invalid => 3
    case ProcessFails => 4
    case Processed(_) => 4
  }
}

=== FILE: registry.dfy ===
/**
 * The processor registry a broker keeps: one map from message name to
 * processor type and one from message name to model type.
 */
module Registry {
  import opened Wrappers

  /** A type handle, identified by its name. */
  type TypeName = string

  /** What the registry holds for one message name. */
  datatype Handler = Handler(model: TypeName, processor: TypeName)

  datatype Registry = Registry(processors: map<string, TypeName>, models: map<string, TypeName>)
  {
    /** Both maps register the same message names. */
    predicate Consistent()
    {
      processors.Keys == models.Keys
    }
  }

  /** A broker's registry before any message type is added. */
  const Empty := Registry(map[], map[])

  /** Adding a message name that is already present throws. */
  datatype RegistryError = DuplicateName(name: string)

  /**
   * Registers `name` with its model and processor types: first in the
   * processor map, then in the model map; either insertion throws on a
   * name already present.
   */
  function AddMessageType(r: Registry, name: string, model: TypeName, processor: TypeName)
    : (res: Result<Registry, RegistryError>)
    ensures res.Failure? <==> name in r.processors || name in r.models
    ensures res.Failure? ==> res.error == DuplicateName(name)
    ensures r.Consistent() ==> (res.Failure? <==> name in r.processors)
    ensures res.Success? ==>
      && res.value.processors.Keys == r.processors.Keys + {name}
      && res.value.models.Keys == r.models.Keys + {name}
      && res.value.processors[name] == processor
      && res.value.models[name] == model
      && (forall n :: n in r.processors ==> res.value.processors[n] == r.processors[n])
      && (forall n :: n in r.models ==> res.value.models[n] == r.models[n])
    ensures res.Success? && r.Consistent() ==> res.value.Consistent()
  {
    if name in r.processors then Failure(DuplicateName(name))
    else if name in r.models then Failure(DuplicateName(name))
    else Success(Registry(r.processors[name := processor], r.models[name := model]))
  }

  /** One `AddMessageType` call in a setup chain. */
  datatype Registration = Registration(name: string, model: TypeName, processor: TypeName)

  /** No message name is registered twice. */
  predicate DistinctNames(regs: seq<Registration>)
  {
    forall i, j :: 0 <= i < j < |regs| ==> regs[i].name != regs[j].name
  }

  function NamesOf(regs: seq<Registration>): set<string>
  {
    set i | 0 <= i < |regs| :: regs[i].name
  }

  /** A fluent chain of registrations; the first duplicate throws out of the chain. */
  function RegisterAll(r: Registry, regs: seq<Registration>): (res: Result<Registry, RegistryError>)
    ensures r.Consistent() ==>
      (res.Success? <==> DistinctNames(regs) && NamesOf(regs) !! r.processors.Keys)
    ensures r.Consistent() && res.Success? ==>
      res.value.Consistent() && res.value.processors.Keys == r.processors.Keys + NamesOf(regs)
    decreases |regs|
  {
    if |regs| == 0 then Success(r)
    else
      var g := regs[0];
      NamesOfCons(regs);
      match AddMessageType(r, g.name, g.model, g.processor)
      case Failure(e) => Failure(e)
      case Success(next) => RegisterAll(next, regs[1..])
  }

  lemma NamesOfCons(regs: seq<Registration>)
    requires |regs| > 0
    ensures NamesOf(regs) == {regs[0].name} + NamesOf(regs[1..])
    ensures DistinctNames(regs) <==> DistinctNames(regs[1..]) && regs[0].name !in NamesOf(regs[1..])
  {
    forall n | n in NamesOf(regs) ensures n in {regs[0].name} + NamesOf(regs[1..]) {
      var i :| 0 <= i < |regs| && regs[i].name == n;
      if i > 0 { assert regs[1..][i - 1] == regs[i]; }
    }
    forall n | n in NamesOf(regs[1..]) ensures n in NamesOf(regs) {
      var i :| 0 <= i < |regs[1..]| && regs[1..][i].name == n;
      assert regs[i + 1] == regs[1..][i];
    }
    if DistinctNames(regs[1..]) && regs[0].name !in NamesOf(regs[1..]) {
      forall i, j | 0 <= i < j < |regs| ensures regs[i].name != regs[j].name {
        assert regs[j] == regs[1..][j - 1];
        if i > 0 { assert regs[i] == regs[1..][i - 1]; }
      }
    }
    if DistinctNames(regs) {
      forall k | 0 <= k < |regs[1..]| ensures regs[1..][k].name != regs[0].name {
        assert regs[1..][k] == regs[k + 1];
      }
    }
  }
}

=== FILE: settings.dfy ===
/**
 * The broker's validated settings (`QBrokerSettings`) and the setup step that
 * applies a caller's assignments to a fresh settings record.
 */
module BrokerSettings {
  import opened Wrappers

  /** Bounds on the receive batch size. */
  const MinBatchSize := 1
  const MaxBatchSize := 10
  /** Bounds on the long-poll wait time, in seconds. */
  const MinWaitSeconds := 0
  const MaxWaitSeconds := 20

  datatype Settings = Settings(
    maxNumberOfMessages: int,
    waitTimeSeconds: int,
    queueUrl: Option<string>,
    fetchUntilEmpty: bool,
    deleteIfSuccess: bool,
    deleteIfInvalid: bool,
    deleteIfError: bool)
  {
    /** Both range-checked properties hold a value their setters accept. */
    predicate InRange()
    {
      && MinBatchSize <= maxNumberOfMessages <= MaxBatchSize
      && MinWaitSeconds <= waitTimeSeconds <= MaxWaitSeconds
    }
  }

  /** A freshly constructed settings record. */
  function Defaults(): (s: Settings)
    ensures s.InRange()
    ensures s.maxNumberOfMessages == 5 && s.waitTimeSeconds == 0
    ensures s.queueUrl == None
    ensures s.fetchUntilEmpty && s.deleteIfSuccess && s.deleteIfInvalid && s.deleteIfError
  {
    Settings(5, 0, None, true, true, true, true)
  }

  /** One property assignment a setup action performs. */
  datatype Assignment =
    | SetMaxNumberOfMessages(count: int)
    | SetWaitTimeSeconds(seconds: int)
    | SetQueueUrl(url: Option<string>)
    | SetFetchUntilEmpty(flag: bool)
    | SetDeleteIfSuccess(flag: bool)
    | SetDeleteIfInvalid(flag: bool)
    | SetDeleteIfError(flag: bool)

  /** The out-of-range exception a setter throws, identified by the property it names. */
  datatype RangeError =
    | MaxNumberOfMessagesOutOfRange
    | WaitTimeSecondsOutOfRange

  /** Whether the setter accepts the assigned value. */
  predicate Accepts(a: Assignment)
  {
    match a
    case SetMaxNumberOfMessages(n) => MinBatchSize <= n <= MaxBatchSize
    case SetWaitTimeSeconds(n) => MinWaitSeconds <= n <= MaxWaitSeconds
    case _ => true
  }

  /** After the assignment the targeted property reads the assigned value. */
  predicate Reads(s: Settings, a: Assignment)
  {
    match a
    case SetMaxNumberOfMessages(n) => s.maxNumberOfMessages == n
    case SetWaitTimeSeconds(n) => s.waitTimeSeconds == n
    case SetQueueUrl(u) => s.queueUrl == u
    case SetFetchUntilEmpty(b) => s.fetchUntilEmpty == b
    case SetDeleteIfSuccess(b) => s.deleteIfSuccess == b
    case SetDeleteIfInvalid(b) => s.deleteIfInvalid == b
    case SetDeleteIfError(b) => s.deleteIfError == b
  }

  /** `t` agrees with `s` on every property the assignment does not target. */
  predicate SameOtherwise(s: Settings, t: Settings, a: Assignment)
  {
    && (a.SetMaxNumberOfMessages? || t.maxNumberOfMessages == s.maxNumberOfMessages)
    && (a.SetWaitTimeSeconds? || t.waitTimeSeconds == s.waitTimeSeconds)
    && (a.SetQueueUrl? || t.queueUrl == s.queueUrl)
    && (a.SetFetchUntilEmpty? || t.fetchUntilEmpty == s.fetchUntilEmpty)
    && (a.SetDeleteIfSuccess? || t.deleteIfSuccess == s.deleteIfSuccess)
    && (a.SetDeleteIfInvalid? || t.deleteIfInvalid == s.deleteIfInvalid)
    && (a.SetDeleteIfError? || t.deleteIfError == s.deleteIfError)
  }

  /**
   * One setter call. The range check runs before the store, so a rejected
   * value leaves the record as it was (the caller keeps `s`).
   */
  function Assign(s: Settings, a: Assignment): (r: Result<Settings, RangeError>)
    ensures r.Success? <==> Accepts(a)
    ensures r.Failure? && a.SetMaxNumberOfMessages? ==> r.error == MaxNumberOfMessagesOutOfRange
    ensures r.Failure? && a.SetWaitTimeSeconds? ==> r.error == WaitTimeSecondsOutOfRange
    ensures r.Success? ==> Reads(r.value, a) && SameOtherwise(s, r.value, a)
    ensures r.Success? && s.InRange() ==> r.value.InRange()
  {
    match a
    case SetMaxNumberOfMessages(n) =>
      if n < MinBatchSize || n > MaxBatchSize then Failure(MaxNumberOfMessagesOutOfRange)
      else Success(s.(maxNumberOfMessages := n))
    case SetWaitTimeSeconds(n) =>
      if n < MinWaitSeconds || n > MaxWaitSeconds then Failure(WaitTimeSecondsOutOfRange)
      else Success(s.(waitTimeSeconds := n))
    case SetQueueUrl(u) => Success(s.(queueUrl := u))
    case SetFetchUntilEmpty(b) => Success(s.(fetchUntilEmpty := b))
    case SetDeleteIfSuccess(b) => Success(s.(deleteIfSuccess := b))
    case SetDeleteIfInvalid(b) => Success(s.(deleteIfInvalid := b))
    case SetDeleteIfError(b) => Success(s.(deleteIfError := b))
  }

  /** The settings a setup action leaves behind, and the exception it raised, if any. */
  datatype Configured = Configured(settings: Settings, error: Option<RangeError>)

  /**
   * Runs the assignments in order. The first rejected one throws out of the
   * setup action; the record keeps every assignment made before it.
   */
  function Apply(s: Settings, assignments: seq<Assignment>): (r: Configured)
    ensures r.error.None? <==> forall i :: 0 <= i < |assignments| ==> Accepts(assignments[i])
    ensures s.InRange() ==> r.settings.InRange()
    ensures r.error.None? && |assignments| > 0 ==> Reads(r.settings, assignments[|assignments| - 1])
    decreases |assignments|
  {
    if |assignments| == 0 then Configured(s, None)
    else
      match Assign(s, assignments[0])
      case Failure(e) => Configured(s, Some(e))
      case Success(t) => Apply(t, assignments[1..])
  }

  /** Applying an assignment the setter rejects changes nothing and stops the setup. */
  lemma RejectedAssignmentKeepsState(s: Settings, a: Assignment, rest: seq<Assignment>)
    requires !Accepts(a)
    ensures Apply(s, [a] + rest).settings == s
    ensures Apply(s, [a] + rest).error.Some?
  {
    assert ([a] + rest)[0] == a;
  }

  /** The broker's setup: a fresh record, then the caller's assignments. */
  function Setup(assignments: seq<Assignment>): (r: Configured)
    ensures r.settings.InRange()
    ensures |assignments| == 0 ==> r.settings == Defaults()
  {
    Apply(Defaults(), assignments)
  }
}

=== FILE: wrappers.dfy ===
/** Failure-compatible wrappers used across the model. */
module Wrappers {

  /** A value that may be absent (a null reference). */
  datatype Option<+T> = None | Some(value: T)

  /** The outcome of an operation that can throw: a value or the error it raised. */
  datatype Result<+T, +E> = Success(value: T) | Failure(error: E)
}
